=== FILE: README.md ===
# Board simulation of `tetris.py`, modelled in Dafny

This project models the simulation core of the single-file falling-block
game `tetris.py`:

- the seven shapes and their colours;
- the quarter-turn `rotate`;
- `Piece` construction and rotation;
- `collision`;
- the locked-cell map with `lock_piece` and `create_grid`;
- line clearing with `clear_rows` and `del_row`;
- the ghost projection;
- the seven-bag queue (`new_bag`, `next_piece`);
- the non-drawing state changes of the main loop: gravity, the key handlers, locking with scoring and levels, the hold slot and top-out.

The model is purely functional. The board is a `map<(int, int), Color>`. The falling piece is a record. The mutable globals and locals of `main` become a `Session` value threaded through pure step functions. The random shuffle is a permutation supplied by the caller.

Modules follow the structure of the program:

| module | file | contents |
|---|---|---|
| `Shapes` | shapes.dfy | catalog, colours, `rotate` and its algebra |
| `Board` | board.dfy | collision, key enumeration, grid projection |
| `Pieces` | pieces.dfy | spawning, rotation, locking, descent and ghost |
| `LineClear` | lineclear.dfy | `del_row` as a fold, its closed form, `clear_rows` |
| `Bag` | bag.dfy | the seven-bag randomiser |
| `Game` | game.dfy | the session, every transition, the validity invariant |

Behaviours of the code that differ from the usual description of the game
are modelled as the code does them, and proved:

- **`del_row` collapses runs rather than shifting rows.** The keys are visited top-down. An entry moved into `(x, y + 1)` is moved again when that key's turn comes. So a vertical run of cells above the cleared row becomes a single cell in the colour of the run's top. A run that reaches into the cleared row vanishes entirely.
  - `LineClear.DelRowIsCollapse` gives the closed form.
  - `LineClear.DelRowIsShiftIff` shows that the textbook one-row shift happens exactly when no two cells are stacked at or above the row.
  - `LineClear.RunAboveCollapses` and `LineClear.RunOnRowVanishes` state the two run cases.
- **`clear_rows` uses a stale grid.** The grid is built once per frame, before anything moves, and every lock in the frame clears rows against it. A row completed by a lock is therefore not cleared until a later lock in a later frame (`Game.StaleGridKeepsCompletedRow`, and over a whole frame `Game.FrameKeepsCompletedRow`). `Game.FrameGravityLocks` and `Game.FrameNotDue` state that gravity and every event of a frame use the grid built from the frame's starting map. Two locks in one frame (gravity locks the piece, then a hard drop locks the next one) both clear the rows full in that grid. Such a row is counted and scored twice. The first clear leaves that row empty; the second deletes whatever the hard drop put into it, together with the runs of cells resting on it (`Game.TwoLocksOneGrid`).
- **Rotation checks only the board bounds.** Locked cells are not consulted, so a rotated piece can overlap them (`Pieces.RotationIgnoresLocked`).
- **No top-out check on hold.** The first hold draws a new piece, and a later hold respawns the held piece at the top (tetris.py:255-258). Neither checks for a collision, so neither ends the game.
- **Events after quitting.** Events after a quit in the same frame are still handled.

The colour lookup `COLORS[SHAPES.index(shape)]` is partial. It is modelled as `Shapes.ColorOf`, whose precondition is that the shape is a catalog entry. Three call sites can reach it with a rotated shape:

- the ghost, through `Piece(piece.shape)` at tetris.py:145, computed every frame at tetris.py:262;
- the preview of the hold slot at tetris.py:160, drawn every frame at tetris.py:266;
- the hold swap at tetris.py:256.

The first and the last are in the model; see "## Findings". The session uses corrected versions of those two operations. The preview is drawing code; see "## Left out".

## Model

| member | source | states |
|---|---|---|
| Shapes.CatalogDistinct | tetris.py:13-36 | There are seven shapes and seven colours, no two shapes are equal, and the background colour is not a piece colour. |
| Shapes.CatalogWellShaped | tetris.py:13-27 | Every catalog shape is a rectangle of 1 to 4 rows and columns with at least one filled cell. |
| Shapes.IndexOf | tetris.py:62 | `list.index`: the position of the first occurrence of the value, with no earlier occurrence. |
| Shapes.ColorOf | tetris.py:62 | Defined only for catalog shapes. It gives the colour at the shape's catalog position, which is a piece colour and never the background. |
| Shapes.Reverse | tetris.py:56 | `shape[::-1]`: row `i` of the result is row `n - 1 - i` of the input. |
| Shapes.MinWidth | tetris.py:56 | The number of tuples `zip` yields: the length of the shortest row, 0 for no rows. |
| Shapes.Transpose | tetris.py:56 | `zip(*t)`: one row per column up to the shortest row, each as long as `t` has rows. Entry `(i, j)` is `t[j][i]`. |
| Shapes.Rotate | tetris.py:55-56 | For every shape, the result has `MinWidth` rows of `|s|` cells, and `result[i][j] == s[|s| - 1 - j][i]`. |
| Shapes.RotateRect | tetris.py:55-56 | An r x c matrix turns into a c x r one. |
| Shapes.RotateTwice | tetris.py:55-56 | Two turns map entry `(i, j)` to `(rows - 1 - i, cols - 1 - j)`. |
| Shapes.RotateFourTimes | tetris.py:55-56 | Four turns give back every non-empty rectangular shape. |
| Shapes.RotateFilled | tetris.py:55-56 | A turn moves filled cell `(i, j)` to `(j, rows - 1 - i)`, and no other cell is filled. |
| Shapes.RotatePreservesCount | tetris.py:55-56 | A turn keeps the number of filled cells. |
| Shapes.RotateWellShaped | tetris.py:55-56 | A turned game shape is again a game shape. |
| Board.RowHits | tetris.py:83-90 | The inner scan finds a hit iff some filled cell of the row from the start column on is blocked. |
| Board.CollisionFrom | tetris.py:82-91 | The outer scan finds a hit iff some filled cell of the remaining rows is blocked. |
| Board.Collision | tetris.py:80-91 | True iff some filled cell lands at x < 0, x >= 10 or y >= 20, or on a locked key at a row above -1. |
| Board.CollisionBounds | tetris.py:80-91 | Against the empty map, collision is exactly the bounds test. A bounds collision is a collision against every map. |
| Board.FloorCollides | tetris.py:87-88 | A shape with a filled cell collides once its origin is at or below the floor row. |
| Board.LeastKeyExists | tetris.py:104 | Every non-empty set of keys has a least key in row-then-column order. |
| Board.SortedKeys | tetris.py:104 | Lists exactly the keys of the map, in increasing row order. |
| Board.Blocked | tetris.py:87-90 | A cell blocks when its column is off the board, its row is at or below the floor, or it is a locked key in a row above -1. |
| Board.EmptyGrid | tetris.py:73 | 20 rows of 10 cells, each the background colour `(0, 0, 0)`. |
| Board.Paint | tetris.py:74-76 | Every listed key paints its colour into its cell; other cells keep their value. |
| Board.CreateGrid | tetris.py:72-77 | Cell `(x, y)` shows the locked colour if `(x, y)` is locked, else the background. |
| Board.FullRow | tetris.py:97 | A grid row is full when no cell has the background colour. |
| Board.FullRowIff | tetris.py:97 | A projected row has no background cell iff every column of that row is locked. |
| Pieces.SpawnX | tetris.py:63 | The spawn column centres the shape's top row: the free columns to its left equal those to its right, or are one more. |
| Pieces.SpawnInBounds | tetris.py:63-64 | A game shape at its spawn column and row 0 is inside the board. |
| Pieces.NewPiece | tetris.py:60-64 | A catalog shape spawns at its spawn column and row 0, in its catalog colour, inside the board. |
| Pieces.RotatePiece | tetris.py:66-69 | The turned shape is kept iff it passes the bounds-only test, else the piece is unchanged. Position and colour never change. A piece inside the board stays inside. |
| Pieces.CoversRowFromStep | tetris.py:172-174 | The cells of shape row `i` from column `j` on are cell `j`, if filled and at a row above -1, plus those from column `j + 1` on. |
| Pieces.LockRow | tetris.py:172-174 | The inner loop adds exactly the covered cells of one shape row from the start column on. It overwrites them with the piece colour and keeps every other entry. |
| Pieces.LockRows | tetris.py:171-174 | The outer loop does the same for the shape rows from the start row on. |
| Pieces.LockPiece | tetris.py:170-174 | The result holds the old keys plus every filled cell at a row above -1. Those cells take the piece colour, overwriting any entry, and every other key keeps its colour. |
| Pieces.LockPieceOnBoard | tetris.py:170-174 | Locking a piece that is inside the board keeps every key on the board. |
| Pieces.DropDistance | tetris.py:147-148 | The loop stops at the first row whose next row collides; every row passed on the way is free. |
| Pieces.GhostPiece | tetris.py:144-149 | Shape, column and colour are kept. The row is the first one at or below the piece's row from which the next row collides. A piece inside the board gives a ghost inside the board. |
| Pieces.GhostAsWritten | tetris.py:144-149 | The ghost built as written: it demands a catalog shape and takes that shape's catalog colour. |
| Pieces.TurnAtSpawnInBounds | tetris.py:66-69 | Every game shape can turn once at its spawn position. |
| Pieces.TurnedShapeLeavesCatalog | tetris.py:145 | One turn of any catalog piece other than O at spawn succeeds, and the turned shape is not in the catalog. |
| Pieces.RotationIgnoresLocked | tetris.py:68 | A spawned I piece turns upright onto a locked cell and then collides with it. |
| LineClear.DelRowStep | tetris.py:106-109 | A key above the row leaves the map and its colour lands one row lower. A key in the row leaves the map. A key below the row changes nothing. No other entry changes. |
| LineClear.DelRowFold | tetris.py:104-109 | The loop over a listing of the keys; `LineClear.DelRowFoldSize` and `LineClear.DelRowFoldIsCollapse` state what it computes. |
| LineClear.RunTop | tetris.py:105-107 | The top of the vertical run that ends at a locked cell: every cell from it down is locked, and the cell above it is not. |
| LineClear.ShiftedMember | tetris.py:107 | A key is among the keys moved down one row iff the key above it was there. |
| LineClear.Collapse | tetris.py:103-109 | Closed form of `del_row`. Below the row, entries stay. At or above it, a cell is filled iff it is empty and the cell above it is locked, and it takes the colour of the top of that run. |
| LineClear.PartialStepAboveLanding | tetris.py:106-107 | Visiting a key above the row puts its entry on the cell below it. |
| LineClear.PartialStepAboveElsewhere | tetris.py:106-107 | Away from that landing cell, the visit removes the key and changes nothing else. |
| LineClear.PartialStepAbove | tetris.py:106-107 | Popping a key above the row and storing it one row lower advances the partial closed form by that key. |
| LineClear.PartialStepOn | tetris.py:108-109 | Deleting a key in the row advances the partial closed form by that key. |
| LineClear.PartialStepBelow | tetris.py:105-109 | A key below the row is left alone and advances the partial closed form by that key. |
| LineClear.PrefixFacts | tetris.py:104-105 | In a row-sorted listing, the keys before position `i` are map keys and exclude every later key. Every key of an earlier row is among them and none is of a later row, so key `i` is a valid next visit. After the last position, every key has been visited. |
| LineClear.PartialStep | tetris.py:105-109 | One loop iteration turns the state after visiting a set of keys into the state after visiting one more. |
| LineClear.PendingPresent | tetris.py:105-109 | Every key still to be visited at or above the row is present when its turn comes, so `pop` and `del` never fail. |
| LineClear.NextStep | tetris.py:105-109 | The next key of a row-sorted listing is a valid next step of the fold. |
| LineClear.FoldFromPartial | tetris.py:105-109 | Running the rest of the loop from any prefix state gives the closed form. |
| LineClear.PartialEnds | tetris.py:103-109 | Before any visit the state is the map itself; after all visits it is the closed form. |
| LineClear.DelRowFoldIsCollapse | tetris.py:104-109 | Any row-sorted listing of the keys gives the closed form, whatever order Python picks within a row. |
| LineClear.DelRowFoldSize | tetris.py:105-109 | The loop never adds an entry, and it removes at least one when a key lies in the row. |
| LineClear.SortedKeysEnumerate | tetris.py:104 | The sorted listing lists each key once, rows ascending, and includes a key of the row if there is one. |
| LineClear.DelRow | tetris.py:103-109 | The entry count never grows, and it drops when the row held an entry. |
| LineClear.DelRowIsCollapse | tetris.py:103-109 | `del_row` computes `Collapse`; in particular, entries below the row are untouched. |
| LineClear.DelRowOnBoard | tetris.py:103-109 | On-board keys stay on the board. If every column of the row is filled, no entry remains in that row. |
| LineClear.DelRowPalette | tetris.py:107 | No new colour appears: every entry left has a colour of the old map. |
| LineClear.RunTopOfRun | tetris.py:105-107 | The run top of a run from `top` to `bottom` whose upper neighbour is empty is `top`. |
| LineClear.RunAboveCollapses | tetris.py:105-107 | A run wholly above the row becomes one cell just below its bottom, in the colour of its top. |
| LineClear.RunOnRowVanishes | tetris.py:105-109 | A run reaching into the row leaves nothing from its top to the row. The cell above it fills only if a run ended right above that cell. |
| LineClear.CollapseIsShift | tetris.py:103-109 | With no two cells stacked at or above the row, the collapse equals the one-row shift. |
| LineClear.StackBreaksShift | tetris.py:106-107 | For a stacked pair above the row, the shift fills the lower cell but `del_row` leaves it empty. |
| LineClear.DelRowIsShiftIff | tetris.py:103-109 | `del_row` equals the one-row shift iff no two cells are stacked at or above the row. |
| LineClear.FullRowsBelowStep | tetris.py:96-98 | Looking at one more grid row adds one to the full-row count iff that row is full. |
| LineClear.ClearFrom | tetris.py:96-99 | The count is the number of full grid rows scanned. The map never grows, and it is unchanged when nothing is cleared. `LineClear.ClearFromDeletesFullRows` gives the map. |
| LineClear.ClearRows | tetris.py:94-100 | Returns the number of grid rows without a background cell. The map never grows, and it is unchanged when nothing is cleared. `LineClear.ClearRowsDeletesFullRows` gives the map. |
| LineClear.FullRowsDownLists | tetris.py:96-97 | The scan's full rows, listed bottom to top: exactly the rows without a background cell, each once, strictly descending. |
| LineClear.FullRowsDownCount | tetris.py:96-98 | There are as many listed rows as the count returned. |
| LineClear.DelRows | tetris.py:99 | Applying `del_row` for each listed row never grows the map. |
| LineClear.ClearFromDeletesFullRows | tetris.py:96-99 | The scan leaves the map that `del_row` gives when applied once per full row, bottom row first. |
| LineClear.ClearRowsDeletesFullRows | tetris.py:94-100 | `clear_rows` returns the number of full rows and leaves `del_row` applied to each of them from the bottom up. |
| LineClear.ClearRowsOneFullRow | tetris.py:94-100 | With exactly one full row, the count is 1 and the map is that row's collapse. |
| LineClear.ClearFromPalette | tetris.py:96-99 | The scan introduces no colour. |
| LineClear.ClearFromOnBoard | tetris.py:96-99 | A scan of at most 20 rows keeps every key on the board. |
| LineClear.ClearRowsKeeps | tetris.py:94-100 | `clear_rows` keeps the palette of the map, and keeps keys on the board for a grid of at most 20 rows. |
| LineClear.ClearRowsOnStaleGrid | tetris.py:94-100 | Against the grid of an earlier map, the count is the number of rows complete in that earlier map, whatever the current map holds. |
| Bag.NewBag | tetris.py:39-42 | The bag holds seven catalog shapes, in the order the shuffle puts the catalog positions. |
| Bag.NewBagDealsEachShapeOnce | tetris.py:39-42 | The bag is a permutation of the catalog: its shapes are distinct, and every catalog shape is in it. |
| Bag.Draw | tetris.py:48-51 | Refills from the shuffle only when the queue is empty, then takes the front shape and keeps the rest in order. |
| Bag.NextPiece | tetris.py:48-52 | The drawn shape is spawned at its spawn column and row 0, in its catalog colour, inside the board; the queue is left as the draw leaves it. |
| Bag.Draws | tetris.py:48-52 | `n` draws yield `n` catalog shapes and leave a catalog queue. |
| Bag.DrawsDrain | tetris.py:48-51 | Draining a non-empty queue deals it in order and never refills. |
| Bag.RestOfBagDrains | tetris.py:48-51 | The six draws after the first deal the rest of the first bag in order and never refill. |
| Bag.FirstDrawRefills | tetris.py:49-51 | The first draw from an empty queue takes the front of the first shuffle's bag. |
| Bag.SevenDrawsDealOneBag | tetris.py:39-51 | Seven draws from an empty queue deal exactly the first bag, in order, and empty the queue. |
| Bag.SevenDrawsDealEachShapeOnce | tetris.py:39-51 | Seven draws from an empty queue deal each of the seven shapes exactly once. |
| Bag.DrawKeepsBagRest | tetris.py:39-51 | A draw keeps the queue what is left of one bag: distinct catalog shapes, fewer than seven. `Game.Valid` carries this for every session. |
| Bag.DrainThenBag | tetris.py:39-51 | From any queue, the draws deal the queue in order, and the seven after it deal exactly the next shuffle's bag, leaving the queue empty. |
| Game.LineScore | tetris.py:211 | 100, 300, 500 or 800 points for 1 to 4 rows, and 0 for any other count. |
| Game.Award | tetris.py:211 | Clearing no row scores nothing. |
| Game.Start | tetris.py:184-196 | The first session: empty board, no hold, score 0, lines 0, level 1, running. The piece and queue are those of a first draw from the empty queue. |
| Game.LockAndSpawn | tetris.py:207-217 | Lock, then clear against the given grid. The award uses the level before the update, and the level becomes `lines // 10 + 1` only when a row was cleared. The piece and queue are those of the next draw, the hold is rearmed, and the game ends iff the new piece collides. |
| Game.LockAndSpawnValid | tetris.py:207-217 | Locking and spawning keep the session invariant. |
| Game.TryMove | tetris.py:223-228 | When the target is free the piece moves exactly by the offset; when it is not the session is unchanged. Nothing but the piece's position ever changes. |
| Game.TryMoveValid | tetris.py:223-228 | A guarded move keeps the session invariant. |
| Game.HardDrop | tetris.py:232-248 | The piece falls to its ghost position and scores 2 per row fallen. It locks there; the rows are cleared, counted and scored, and the level updated, as for any lock. The next draw becomes the piece, the hold is rearmed, and the game ends iff the new piece collides. |
| Game.HardDropValid | tetris.py:232-248 | A hard drop keeps the session invariant. |
| Game.Hold | tetris.py:249-259 | A no-op when already used. Otherwise the falling piece is parked with its colour. An empty slot takes the next draw as the piece. A full one gives back the held piece at its spawn column and row 0, in its own colour, with the queue untouched. Map, score, lines, level and running flag are kept. |
| Game.HoldAsWritten | tetris.py:249-259 | A used hold does nothing. Otherwise it is the corrected hold except for the colour: the swap as written recolours the piece taken back by catalog lookup, which demands a catalog shape. |
| Game.RotatedHoldLeavesCatalog | tetris.py:252 | A turned T piece can be parked, and the parked shape is not a catalog shape. |
| Game.RotatedHoldIdleUntilLock | tetris.py:250 | Right after a turned T is parked, a second hold as written does nothing, since the hold is used. |
| Game.HoldSwapTwice | tetris.py:249-259 | A swap, a lock, and a second swap: the second swap gives back, in shape and colour, the piece the first swap parked, and parks the piece the lock spawned. |
| Game.HoldValid | tetris.py:249-259 | The hold keeps the session invariant. |
| Game.HoldOncePerPiece | tetris.py:249-259 | After a hold, followed by any events without a hard drop, a second hold changes nothing. |
| Game.HeldUntilLock | tetris.py:219-259 | Events without a hard drop keep a used hold used and leave the slot as it is. |
| Game.Step | tetris.py:219-259 | Score and lines never decrease. A quit only stops the game. Moves, soft drop, rotation and unknown keys keep the map and the running flag. Every event but a hard drop or a hold keeps the hold slot, the hold flag, the queue, the lines and the level. |
| Game.StepDispatch | tetris.py:221-259 | Which handler each key runs: left and right are guarded moves by one column, down is a guarded move by one row scoring 1 or nothing, up turns the piece when the turn stays on the board, space is the hard drop, C is the hold, and any other key changes nothing. |
| Game.SoftDropScores | tetris.py:227-229 | A soft drop that moves scores exactly 1; a blocked one changes nothing. |
| Game.StepValid | tetris.py:219-259 | Every event keeps the session invariant. |
| Game.GravityFalls | tetris.py:204-205 | When the row below is free, the timed fall moves the piece down one row, exactly as a guarded move by `(0, 1)`. |
| Game.GravityLocks | tetris.py:206-217 | When the row below is taken, the timed fall is the lock of `Game.LockAndSpawn`. |
| Game.GravityLockValid | tetris.py:206-217 | A blocked fall locks and keeps the invariant. Score and lines do not decrease, and a stopped game stays stopped. |
| Game.GravityValid | tetris.py:202-217 | The timed fall keeps the invariant, score and lines do not decrease, and it never restarts a stopped game. |
| Game.Events | tetris.py:219-259 | Any event sequence keeps the invariant with non-decreasing score and lines. After a quit, or if already stopped, the game is stopped. |
| Game.Frame | tetris.py:197-259 | A whole frame keeps the invariant with non-decreasing score and lines. A quit stops the game. |
| Game.FrameGravityThenEvents | tetris.py:197-259 | A frame whose fall is due is gravity followed by the events, both against the grid built from the map the frame starts with. |
| Game.FrameGravityLocks | tetris.py:197-259 | When the due fall finds the row below taken, the frame locks against that starting grid and then runs the events against the same grid. |
| Game.FrameNotDue | tetris.py:197-198 | A frame whose fall is not due runs only the events, against the starting grid. |
| Game.IPieceCoversRight | tetris.py:173-174 | An I piece lying at column 6 of the bottom row covers its last four cells. |
| Game.IPieceCompletesFloor | tetris.py:170-174 | Locking that I piece on the example board completes the bottom row. |
| Game.StaleClearNothing | tetris.py:198 | With the grid projected from the example board, no row is cleared, whatever the map holds by then. |
| Game.LockWithoutClear | tetris.py:209-217 | A lock that clears nothing keeps lines and score and leaves the locked map with the piece added. |
| Game.StaleGridKeepsCompletedRow | tetris.py:207-208 | The lock completes the bottom row, yet nothing is cleared or scored, and the full row stays. |
| Game.FrameKeepsCompletedRow | tetris.py:197-217 | The same in a whole frame: the timed fall locks the I piece on the bottom row, and the frame ends with that row full, no line counted and no points. |
| Game.TwoLocksOneGrid | tetris.py:207-242 | With one full row in the grid, a gravity lock followed by a hard drop against the same grid collapses that row twice, once per lock, and counts it twice. |

## Left out

- Drawing: `draw_grid`, `draw_piece`, `draw_preview`, the text and the window (tetris.py:112-167, 261-280). These are calls into the graphics library and change no game state.
- Timing: `fall_time`, `fall_speed` and the clock (tetris.py:190-191, 199-203, 213, 244). These use wall-clock time and floating point. Whether gravity acts in a frame is the parameter `due` of `Game.Frame`.
- Randomness: `random.shuffle` in `new_bag` becomes a caller-supplied permutation of the seven catalog positions (`Bag.IsShuffle`). The `random.choice` default of `Piece` (tetris.py:61) is never used by the game, so `Pieces.NewPiece` always takes a shape.
- The global `piece_queue` becomes the `queue` field of the session.
- The ghost computed for drawing at tetris.py:262 is not part of `Game.Frame`. Its value is only drawn. As written it raises `ValueError` on a rotated shape, ending the program (first row of "## Findings"); `Game.Frame` does not model that end.
- The hold-slot preview: `draw_preview` at tetris.py:160, called on the hold slot at tetris.py:266, looks the parked shape up in `SHAPES`. It raises `ValueError` at the end of any frame that parks a rotated shape, which ends the program. Drawing is not modelled; `Game.RotatedHoldLeavesCatalog` shows such a shape can be parked.
- Board.Blocked, Board.FullRow: predicates that state the source's tests directly. `Board.Collision` and `Board.FullRowIff` carry their properties.
- Board.CreateGrid: requires every key at a row above -1 to lie on the board. Python would wrap a negative column or raise `IndexError` for an off-board one. The game never stores such a key, as `Game.Valid` shows.
- Board.SortedKeys: breaks ties within a row by column, where Python's stable sort keeps insertion order. `LineClear.DelRowFoldIsCollapse` shows the result of `del_row` does not depend on that order.
- LineClear.DelRowFold: carries no contract of its own; `LineClear.DelRowFoldSize` and `LineClear.DelRowFoldIsCollapse` state what it computes.
- Pieces.DropDistance: requires a shape with a filled cell. For a shape with none, the loops at tetris.py:147 and tetris.py:234 never end, since such a shape collides nowhere. No shape the game spawns is empty.
- Game.Gravity: carries no contract of its own. `Game.GravityFalls` and `Game.GravityLocks` state its two cases, and `Game.GravityValid` states the invariant it keeps.
- Game.Award: states only that clearing nothing scores nothing. The per-count values are stated by `Game.LineScore`, of which it is the product with the level.
- Game.Hold: models the hold swap as corrected (see "## Findings"). The shape-only hold slot of the source becomes a slot holding the shape and its colour.
- Pieces.GhostPiece: models the ghost as corrected (see "## Findings"). The ghost keeps the colour of the piece it projects.

## Findings

| source | as written | input that shows it | evidently intended | confidence | as-written member | corrected member |
|---|---|---|---|---|---|---|
| tetris.py:145 | The ghost is built with `Piece(piece.shape)`, which looks the shape up with `SHAPES.index`. | A T piece spawned and turned once with the up key has shape `[[1,0],[1,1],[1,0]]`, which is not in `SHAPES` (`Pieces.TurnedShapeLeavesCatalog`), so the ghost computed at tetris.py:262 in the same frame raises `ValueError`. | The ghost copies shape and colour from the piece it projects. | not executed | Pieces.GhostAsWritten | Pieces.GhostPiece |
| tetris.py:256 | The swap recolours the piece taken back with `COLORS[SHAPES.index(...)]`. | One frame whose events are: up turns a T piece, hold parks it and draws the next piece, space hard-drops and locks that piece (rearming the hold), hold again. The held shape is not in `SHAPES` (`Game.RotatedHoldLeavesCatalog`), so the lookup raises `ValueError`. Spread over several frames, the ghost at tetris.py:262 or the hold-slot preview at tetris.py:160 raises first. | The piece taken back keeps its own colour. | not executed | Game.HoldAsWritten | Game.Hold |

=== FILE: bag.dfy ===
/** The seven-bag randomiser (tetris.py:39-52): the queue is refilled
    with a shuffled copy of the catalog whenever it runs empty, and every
    draw takes the front shape and spawns it. */
module Bag {
  import opened Shapes
  import opened Board
  import opened Pieces

  /** A shuffle of the seven catalog positions, standing for the outcome
      of `random.shuffle`: every position occurs, each exactly once. */
  predicate IsShuffle(p: seq<nat>)
  {
    && |p| == |Catalog|
    && (forall i | 0 <= i < |p| :: p[i] < |Catalog|)
    && (forall k | 0 <= k < |Catalog| :: k in p)
    && Distinct(p)
  }

  /** The shapes the game draws: catalog entries only. */
  predicate FromCatalog(q: seq<Shape>)
  {
    forall i | 0 <= i < |q| :: q[i] in Catalog
  }

  /** What is left of one bag: distinct catalog shapes, fewer than
      seven of them. `DrawKeepsBagRest` shows every queue the game holds
      is one. */
  predicate BagRest(q: seq<Shape>)
  {
    FromCatalog(q) && Distinct(q) && |q| < |Catalog|
  }

  /** `new_bag()`: the catalog in the order of the shuffle `p`: seven
      catalog shapes. `NewBagDealsEachShapeOnce` shows it holds each of
      them exactly once. */
  function NewBag(p: seq<nat>): (bag: seq<Shape>)
    requires IsShuffle(p)
    ensures |bag| == |Catalog|
    ensures forall i | 0 <= i < |p| :: bag[i] == Catalog[p[i]]
    ensures FromCatalog(bag)
  {
    CatalogDistinct();
    seq(|p|, i requires 0 <= i < |p| => Catalog[p[i]])
  }

  /** The bag is a permutation of the catalog. */
  lemma NewBagDealsEachShapeOnce(p: seq<nat>)
    requires IsShuffle(p)
    ensures Distinct(NewBag(p))
    ensures forall k | 0 <= k < |Catalog| :: Catalog[k] in NewBag(p)
  {
    CatalogDistinct();
    var bag := NewBag(p);
    forall i, j | 0 <= i < j < |bag|
      ensures bag[i] != bag[j]
    {
      assert bag[i] == Catalog[p[i]] && bag[j] == Catalog[p[j]];
    }
    forall k | 0 <= k < |Catalog|
      ensures Catalog[k] in bag
    {
      assert k in p;
      var i :| 0 <= i < |p| && p[i] == k;
      assert bag[i] == Catalog[k];
    }
  }

  /** The queue half of `next_piece()`: refill the queue from the
      shuffle `p` only when it is empty, then take the front shape; the
      rest of the queue is kept in order. */
  function Draw(queue: seq<Shape>, p: seq<nat>): (r: (Shape, seq<Shape>))
    requires FromCatalog(queue) && IsShuffle(p)
    ensures var source := if queue == [] then NewBag(p) else queue;
      r.0 == source[0] && r.1 == source[1..]
    ensures r.0 in Catalog && FromCatalog(r.1)
    ensures queue != [] ==> |r.1| == |queue| - 1
    ensures queue == [] ==> |r.1| == |Catalog| - 1
  {
    var source := if queue == [] then NewBag(p) else queue;
    (source[0], source[1..])
  }

  /** A draw leaves what is left of one bag: either the rest of the bag
      it refilled from, or the queue it found, one shape shorter. */
  lemma DrawKeepsBagRest(queue: seq<Shape>, p: seq<nat>)
    requires BagRest(queue) && IsShuffle(p)
    ensures BagRest(Draw(queue, p).1)
  {
    var source := if queue == [] then NewBag(p) else queue;
    if queue == [] {
      NewBagDealsEachShapeOnce(p);
    }
    var rest := source[1..];
    assert rest == Draw(queue, p).1;
    forall i, j | 0 <= i < j < |rest|
      ensures rest[i] != rest[j]
    {
      assert rest[i] == source[i + 1] && rest[j] == source[j + 1];
    }
  }

  /** `next_piece()`: the drawn shape spawned as a piece, and the queue
      left behind. */
  function NextPiece(queue: seq<Shape>, p: seq<nat>): (r: (Piece, seq<Shape>))
    requires FromCatalog(queue) && IsShuffle(p)
    ensures r.0.shape == Draw(queue, p).0 && r.1 == Draw(queue, p).1
    ensures r.0.x == SpawnX(r.0.shape) && r.0.y == 0 && InBounds(r.0) && r.0.shape in Catalog
    ensures r.0.color == ColorOf(r.0.shape)
    ensures FromCatalog(r.1)
  {
    var d := Draw(queue, p);
    (NewPiece(d.0), d.1)
  }

  /** `n = |ps|` draws in a row, the `i`-th of which would refill the
      queue from the shuffle `ps[i]`: the shapes drawn and the queue left. */
  function Draws(queue: seq<Shape>, ps: seq<seq<nat>>): (r: (seq<Shape>, seq<Shape>))
    requires FromCatalog(queue)
    requires forall i | 0 <= i < |ps| :: IsShuffle(ps[i])
    ensures |r.0| == |ps| && FromCatalog(r.0) && FromCatalog(r.1)
    decreases |ps|
  {
    if ps == [] then ([], queue)
    else
      var d := Draw(queue, ps[0]);
      var rest := Draws(d.1, ps[1..]);
      ([d.0] + rest.0, rest.1)
  }

  /** Draining a non-empty queue deals its shapes in order and never
      consults a shuffle. */
  lemma {:induction false} DrawsDrain(queue: seq<Shape>, ps: seq<seq<nat>>)
    requires FromCatalog(queue) && |ps| == |queue|
    requires forall i | 0 <= i < |ps| :: IsShuffle(ps[i])
    ensures Draws(queue, ps) == (queue, [])
    decreases |ps|
  {
    if ps != [] {
      var d := Draw(queue, ps[0]);
      assert d.0 == queue[0] && d.1 == queue[1..];
      DrawsDrain(d.1, ps[1..]);
      assert Draws(queue, ps) == ([queue[0]] + queue[1..], []);
      assert [queue[0]] + queue[1..] == queue;
    }
  }

  /** The first draw from an empty queue refills it from the first
      shuffle and takes the bag's front shape. */
  lemma FirstDrawRefills(ps: seq<seq<nat>>)
    requires |ps| > 0
    requires forall i | 0 <= i < |ps| :: IsShuffle(ps[i])
    ensures var bag := NewBag(ps[0]);
      var rest := Draws(bag[1..], ps[1..]);
      Draws([], ps) == ([bag[0]] + rest.0, rest.1)
  {
    var d := Draw([], ps[0]);
    assert d.0 == NewBag(ps[0])[0] && d.1 == NewBag(ps[0])[1..];
  }

  /** The six draws after the first deal the rest of the first bag. */
  lemma RestOfBagDrains(ps: seq<seq<nat>>)
    requires |ps| == |Catalog|
    requires forall i | 0 <= i < |ps| :: IsShuffle(ps[i])
    ensures Draws(NewBag(ps[0])[1..], ps[1..]) == (NewBag(ps[0])[1..], [])
  {
    var rest := NewBag(ps[0])[1..];
    var later := ps[1..];
    forall i | 0 <= i < |later|
      ensures IsShuffle(later[i])
    {
      assert later[i] == ps[i + 1];
    }
    assert |later| == |rest| && FromCatalog(rest);
    DrawsDrain(rest, later);
  }

  /** Every entry of `ps` is a shuffle. */
  predicate AllShuffles(ps: seq<seq<nat>>)
  {
    forall i | 0 <= i < |ps| :: IsShuffle(ps[i])
  }

  lemma AllShufflesSlice(ps: seq<seq<nat>>, lo: int, hi: int)
    requires AllShuffles(ps) && 0 <= lo <= hi <= |ps|
    ensures AllShuffles(ps[lo..hi])
  {
    forall i | 0 <= i < hi - lo
      ensures IsShuffle(ps[lo..hi][i])
    {
      assert ps[lo..hi][i] == ps[lo + i];
    }
  }

  /** One draw, then the rest. */
  lemma DrawsCons(queue: seq<Shape>, ps: seq<seq<nat>>)
    requires FromCatalog(queue) && AllShuffles(ps) && ps != []
    ensures AllShuffles(ps[1..])
    ensures var d := Draw(queue, ps[0]);
      var rest := Draws(d.1, ps[1..]);
      Draws(queue, ps) == ([d.0] + rest.0, rest.1)
  {
    AllShufflesSlice(ps, 1, |ps|);
  }

  /** From any queue, the draws first deal the queue in order; the seven
      that follow deal exactly the next shuffle's bag, and the queue is
      empty again. So from any point of the game, once the queue is
      drained, each shape comes exactly once in every seven draws. */
  lemma {:induction false} DrainThenBag(queue: seq<Shape>, ps: seq<seq<nat>>)
    requires FromCatalog(queue) && |ps| == |queue| + |Catalog| && AllShuffles(ps)
    ensures Draws(queue, ps) == (queue + NewBag(ps[|queue|]), [])
    decreases |queue|
  {
    if queue == [] {
      SevenDrawsDealOneBag(ps);
      assert [] + NewBag(ps[0]) == NewBag(ps[0]);
    } else {
      DrawsCons(queue, ps);
      var d := Draw(queue, ps[0]);
      assert d.0 == queue[0] && d.1 == queue[1..];
      DrainThenBag(queue[1..], ps[1..]);
      assert ps[1..][|queue| - 1] == ps[|queue|];
      assert [queue[0]] + (queue[1..] + NewBag(ps[|queue|])) == queue + NewBag(ps[|queue|]);
    }
  }

  /** Seven draws from an empty queue deal the first shuffle's bag, in
      order, and leave the queue empty again. */
  lemma SevenDrawsDealOneBag(ps: seq<seq<nat>>)
    requires |ps| == |Catalog|
    requires forall i | 0 <= i < |ps| :: IsShuffle(ps[i])
    ensures Draws([], ps) == (NewBag(ps[0]), [])
  {
    var bag := NewBag(ps[0]);
    FirstDrawRefills(ps);
    RestOfBagDrains(ps);
    assert [bag[0]] + bag[1..] == bag;
  }

  /** The seven-bag guarantee: seven draws from an empty queue deal each
      of the seven shapes exactly once. */
  lemma SevenDrawsDealEachShapeOnce(ps: seq<seq<nat>>)
    requires |ps| == |Catalog|
    requires forall i | 0 <= i < |ps| :: IsShuffle(ps[i])
    ensures |Draws([], ps).0| == |Catalog| && Distinct(Draws([], ps).0)
    ensures forall k | 0 <= k < |Catalog| :: Catalog[k] in Draws([], ps).0
    ensures Draws([], ps).1 == []
  {
    SevenDrawsDealOneBag(ps);
    NewBagDealsEachShapeOnce(ps[0]);
  }
}

=== FILE: board.dfy ===
/** The board: the map of locked cells, the collision test every move
    consults (tetris.py:80-91), and the dense colour grid derived from the
    map (tetris.py:72-77). */
module Board {
  import opened Shapes

  /** A board coordinate `(x, y)`: column, then row; row 0 is the top and
      rows above the board are negative. */
  type Key = (int, int)

  /** The locked cells: coordinate to colour (`locked_positions`). */
  type Locked = map<Key, Color>

  /** The dense colour grid, row by row (`grid[y][x]`). */
  type Grid = seq<seq<Color>>

  predicate IsGrid(g: Grid)
  {
    |g| == Rows && forall y | 0 <= y < |g| :: |g[y]| == Cols
  }

  /** Every key the grid projection writes lies on the board. */
  predicate Projectable(locked: Locked)
  {
    forall k | k in locked && k.1 > -1 :: 0 <= k.0 < Cols && k.1 < Rows
  }

  /** Every key lies on the board, the invariant the game keeps. */
  predicate OnBoard(locked: Locked)
  {
    forall k | k in locked :: 0 <= k.0 < Cols && 0 <= k.1 < Rows
  }

  /** Every entry has one of the colours of `palette`. */
  predicate PaintedFrom(locked: Locked, palette: seq<Color>)
  {
    forall k | k in locked :: locked[k] in palette
  }

  /** No entry has the background colour. */
  predicate NoBackground(locked: Locked)
  {
    forall k | k in locked :: locked[k] != Black
  }

  // ---------------------------------------------------------------------
  // Collision (tetris.py:80-91)
  // ---------------------------------------------------------------------

  /** A filled cell landing on `(x, y)` collides: off the sides, below the
      floor, or on a locked key; cells above the board (y < 0) only collide
      with the sides. */
  predicate Blocked(x: int, y: int, locked: Locked)
  {
    x < 0 || x >= Cols || y >= Rows || (y > -1 && (x, y) in locked)
  }

  /** The inner loop: scans the cells of one shape row from column `j`. */
  function RowHits(row: seq<bool>, j: nat, x: int, y: int, locked: Locked): (hit: bool)
    requires j <= |row|
    ensures hit <==> exists c | j <= c < |row| :: row[c] && Blocked(x + c, y, locked)
    decreases |row| - j
  {
    if j == |row| then false
    else if row[j] && Blocked(x + j, y, locked) then true
    else RowHits(row, j + 1, x, y, locked)
  }

  /** The outer loop: scans the shape rows from row `i`. */
  function CollisionFrom(shape: Shape, i: nat, ox: int, oy: int, locked: Locked): (hit: bool)
    requires i <= |shape|
    ensures hit <==> exists r, c | i <= r < |shape| && 0 <= c < |shape[r]| ::
      shape[r][c] && Blocked(ox + c, oy + r, locked)
    decreases |shape| - i
  {
    if i == |shape| then false
    else if RowHits(shape[i], 0, ox, oy + i, locked) then true
    else CollisionFrom(shape, i + 1, ox, oy, locked)
  }

  /** `collision(shape, offset_x, offset_y, locked)`: some filled cell of the
      shape placed with its top-left corner at `(ox, oy)` is blocked. A call
      without a locked map is a call with the empty map. */
  function Collision(shape: Shape, ox: int, oy: int, locked: Locked): (hit: bool)
    ensures hit <==> exists r, c | 0 <= r < |shape| && 0 <= c < |shape[r]| ::
      shape[r][c] && Blocked(ox + c, oy + r, locked)
  {
    CollisionFrom(shape, 0, ox, oy, locked)
  }

  /** With no locked cells, collision is a pure bounds check, and any
      collision against the empty map is one against every map. */
  lemma CollisionBounds(shape: Shape, ox: int, oy: int, locked: Locked)
    ensures !Collision(shape, ox, oy, map[]) <==>
      forall r, c | 0 <= r < |shape| && 0 <= c < |shape[r]| && shape[r][c] ::
        0 <= ox + c < Cols && oy + r < Rows
    ensures Collision(shape, ox, oy, map[]) ==> Collision(shape, ox, oy, locked)
  {
  }

  /** A shape with a filled cell collides once its origin reaches the
      floor row, so a descent always stops. */
  lemma FloorCollides(shape: Shape, ox: int, oy: int, locked: Locked)
    requires HasFilled(shape) && oy >= Rows
    ensures Collision(shape, ox, oy, locked)
  {
    var i, j :| 0 <= i < |shape| && 0 <= j < |shape[i]| && shape[i][j];
    assert Blocked(ox + j, oy + i, locked);
  }

  // ---------------------------------------------------------------------
  // Enumerating the keys of the locked map
  // ---------------------------------------------------------------------

  /** Order by row, then column. */
  predicate KeyLess(a: Key, b: Key)
  {
    a.1 < b.1 || (a.1 == b.1 && a.0 < b.0)
  }

  /** `k` is the least key of `s`. */
  predicate IsLeast(k: Key, s: set<Key>)
  {
    k in s && forall k' | k' in s :: k == k' || KeyLess(k, k')
  }

  lemma {:induction false} LeastKeyExists(s: set<Key>)
    requires s != {}
    ensures exists k :: IsLeast(k, s)
    decreases |s|
  {
    var e :| e in s;
    if s == {e} {
      assert IsLeast(e, s);
    } else {
      var rest := s - {e};
      LeastKeyExists(rest);
      var m :| IsLeast(m, rest);
      if KeyLess(e, m) {
        forall k' | k' in s
          ensures e == k' || KeyLess(e, k')
        {
          if k' != e && k' != m {
            assert k' in rest;
          }
        }
        assert IsLeast(e, s);
      } else {
        forall k' | k' in s
          ensures m == k' || KeyLess(m, k')
        {
          if k' != e {
            assert k' in rest;
          }
        }
        assert IsLeast(m, s);
      }
    }
  }

  /** The keys of a set in ascending row order, ties by column: one of the
      orders `sorted(list(locked), key=lambda k: k[1])` can produce (Python
      breaks ties by insertion order). */
  function SortedKeys(s: set<Key>): (ks: seq<Key>)
    ensures forall k :: k in ks <==> k in s
    ensures forall i, j | 0 <= i < j < |ks| :: KeyLess(ks[i], ks[j])
    decreases |s|
  {
    if s == {} then []
    else
      LeastKeyExists(s);
      var k :| IsLeast(k, s);
      [k] + SortedKeys(s - {k})
  }

  // ---------------------------------------------------------------------
  // Grid projection (tetris.py:72-77)
  // ---------------------------------------------------------------------

  /** A grid of background cells. */
  function EmptyGrid(): (g: Grid)
    ensures IsGrid(g)
    ensures forall y, x | 0 <= y < Rows && 0 <= x < Cols :: g[y][x] == Black
  {
    seq(Rows, _ => seq(Cols, _ => Black))
  }

  /** The loop of `create_grid`: each key in `ks` at a row `> -1` paints its
      colour into its cell. */
  function Paint(g: Grid, locked: Locked, ks: seq<Key>): (r: Grid)
    requires IsGrid(g) && Projectable(locked)
    requires forall k | k in ks :: k in locked
    ensures IsGrid(r)
    ensures forall y, x | 0 <= y < Rows && 0 <= x < Cols ::
      r[y][x] == if (x, y) in ks then locked[(x, y)] else g[y][x]
    decreases |ks|
  {
    if ks == [] then g
    else
      var k := ks[0];
      var g' := if k.1 > -1 then g[k.1 := g[k.1][k.0 := locked[k]]] else g;
      Paint(g', locked, ks[1..])
  }

  /** `create_grid(locked)`: the 20 x 10 grid that shows each locked cell on
      the board in its colour and every other cell as background. */
  function CreateGrid(locked: Locked): (g: Grid)
    requires Projectable(locked)
    ensures IsGrid(g)
    ensures forall y, x | 0 <= y < Rows && 0 <= x < Cols ::
      g[y][x] == if (x, y) in locked then locked[(x, y)] else Black
  {
    Paint(EmptyGrid(), locked, SortedKeys(locked.Keys))
  }

  /** A grid row is full when no cell shows the background colour
      (`(0, 0, 0) not in grid[y]`). */
  predicate FullRow(row: seq<Color>)
  {
    Black !in row
  }

  /** Row `y` of the board holds a key in every column. */
  predicate RowComplete(locked: Locked, y: int)
  {
    forall x | 0 <= x < Cols :: (x, y) in locked
  }

  /** When no locked cell is black, a row of the projected grid is full
      exactly when every column of that row holds a locked cell. */
  lemma FullRowIff(locked: Locked, y: int)
    requires Projectable(locked) && NoBackground(locked)
    requires 0 <= y < Rows
    ensures FullRow(CreateGrid(locked)[y]) <==> RowComplete(locked, y)
  {
    var g := CreateGrid(locked);
    if FullRow(g[y]) {
      forall x | 0 <= x < Cols
        ensures (x, y) in locked
      {
        assert g[y][x] in g[y];
      }
    } else {
      var x :| 0 <= x < |g[y]| && g[y][x] == Black;
      if (x, y) in locked {
        assert locked[(x, y)] != Black;
      }
    }
  }
}

=== FILE: game.dfy ===
/** The game session (tetris.py:177-259 without the drawing): gravity,
    the key handlers, locking with line clearing and scoring, the hold
    slot and the top-out rule. One frame builds the colour grid once,
    before anything moves, and every lock in that frame clears rows
    against that grid. */
module Game {
  import opened Shapes
  import opened Board
  import opened Pieces
  import opened LineClear
  import opened Bag

  datatype Option<T> = None | Some(value: T)

  /** The hold slot. It keeps the colour of the piece put there, so that
      taking it back never has to look a (possibly rotated) shape up in
      the catalog. */
  datatype Held = Held(shape: Shape, color: Color)

  datatype Session = Session(
    locked: Locked,
    current: Piece,
    queue: seq<Shape>,
    hold: Option<Held>,
    holdUsed: bool,
    score: nat,
    lines: nat,
    level: nat,
    running: bool)

  /** The key events the session reacts to; every other event is `Other`. */
  datatype Event = Quit | Left | Right | Down | Up | Space | HoldKey | Other

  /** What a step needs of a session: the falling shape has a filled cell
      (so a hard drop stops) and the queue holds catalog shapes (so a
      spawn finds its colour). */
  predicate Playable(s: Session)
  {
    HasFilled(s.current.shape) && FromCatalog(s.queue)
  }

  /** The invariant of every session the game reaches: locked keys on the
      board in piece colours, a well-shaped falling piece inside the
      board, a well-shaped held piece, a queue that is what is left of
      one bag, and the level derived from the line count. */
  predicate Valid(s: Session)
  {
    && OnBoard(s.locked)
    && PaintedFrom(s.locked, Colors)
    && WellShaped(s.current.shape) && InBounds(s.current) && s.current.color in Colors
    && (s.hold.Some? ==> WellShaped(s.hold.value.shape) && s.hold.value.color in Colors)
    && BagRest(s.queue)
    && s.level == s.lines / 10 + 1
  }

  /** Points for clearing `n` rows at once, before the level factor. */
  function LineScore(n: nat): (pts: nat)
    ensures n == 0 || n > 4 ==> pts == 0
    ensures 1 <= n <= 4 ==> pts == [100, 300, 500, 800][n - 1]
  {
    if n == 1 then 100 else if n == 2 then 300 else if n == 3 then 500
    else if n == 4 then 800 else 0
  }

  /** Points for clearing `n` rows at once at level `level`. */
  function Award(n: nat, level: nat): (pts: nat)
    ensures n == 0 ==> pts == 0
  {
    LineScore(n) * level
  }

  /** The session `main` starts with: an empty board, the first piece
      drawn from the shuffle `p`, no hold, level 1. */
  function Start(p: seq<nat>): (s: Session)
    requires IsShuffle(p)
    ensures Valid(s) && s.running && s.score == 0 && s.lines == 0 && s.level == 1
    ensures s.hold == None && !s.holdUsed && s.locked == map[]
    ensures |s.queue| == |Catalog| - 1
    ensures s.current == NextPiece([], p).0 && s.queue == NextPiece([], p).1
  {
    var d := NextPiece([], p);
    CatalogWellShaped();
    DrawKeepsBagRest([], p);
    Session(map[], d.0, d.1, None, false, 0, 0, 1, true)
  }

  // ---------------------------------------------------------------------
  // Locking (tetris.py:207-217 and 238-248)
  // ---------------------------------------------------------------------

  /** Lock the falling piece, clear the rows full in `grid`, award the
      points at the level in force before the clear, spawn the next piece
      from the queue (refilled from the shuffle `p` if empty) and end the
      game when that piece collides where it spawns. */
  function LockAndSpawn(s: Session, grid: Grid, p: seq<nat>): (t: Session)
    requires FromCatalog(s.queue) && IsShuffle(p)
    ensures var c := ClearRows(grid, LockPiece(s.current, s.locked));
      && t.locked == c.1
      && t.lines == s.lines + c.0
      && t.score == s.score + Award(c.0, s.level)
      && t.level == (if c.0 > 0 then t.lines / 10 + 1 else s.level)
    ensures t.current == NextPiece(s.queue, p).0 && t.queue == NextPiece(s.queue, p).1
    ensures t.current.y == 0 && t.current.shape in Catalog && !t.holdUsed && t.hold == s.hold
    ensures t.running <==> s.running && !Collision(t.current.shape, t.current.x, t.current.y, t.locked)
  {
    var locked := LockPiece(s.current, s.locked);
    var c := ClearRows(grid, locked);
    var lines := s.lines + c.0;
    var level := if c.0 > 0 then lines / 10 + 1 else s.level;
    var d := NextPiece(s.queue, p);
    var topOut := Collision(d.0.shape, d.0.x, d.0.y, c.1);
    Session(c.1, d.0, d.1, s.hold, false, s.score + Award(c.0, s.level),
      lines, level, s.running && !topOut)
  }

  /** Locking keeps the session valid, provided the grid has the board's
      height. */
  lemma LockAndSpawnValid(s: Session, grid: Grid, p: seq<nat>)
    requires Valid(s) && IsShuffle(p) && |grid| <= Rows
    ensures Valid(LockAndSpawn(s, grid, p))
  {
    var locked := LockPiece(s.current, s.locked);
    LockPieceOnBoard(s.current, s.locked);
    var c := ClearRows(grid, locked);
    ClearRowsKeeps(grid, locked, Colors);
    CatalogWellShaped();
    DrawKeepsBagRest(s.queue, p);
    var t := LockAndSpawn(s, grid, p);
    assert t.current.color == ColorOf(t.current.shape);
  }

  // ---------------------------------------------------------------------
  // Gravity and the key handlers
  // ---------------------------------------------------------------------

  /** The timed fall (tetris.py:202-217): one row down if free, else lock. */
  function Gravity(s: Session, grid: Grid, p: seq<nat>): Session
    requires FromCatalog(s.queue) && IsShuffle(p)
  {
    var c := s.current;
    if !Collision(c.shape, c.x, c.y + 1, s.locked) then s.(current := c.(y := c.y + 1))
    else LockAndSpawn(s, grid, p)
  }

  /** The timed fall (tetris.py:204-205): one row down when that row is
      free. */
  lemma GravityFalls(s: Session, grid: Grid, p: seq<nat>)
    requires FromCatalog(s.queue) && IsShuffle(p)
    requires !Collision(s.current.shape, s.current.x, s.current.y + 1, s.locked)
    ensures Gravity(s, grid, p) == TryMove(s, 0, 1)
  {
  }

  /** The timed fall (tetris.py:206-217): when the row below is taken, the
      lock of `Game.LockAndSpawn`. */
  lemma GravityLocks(s: Session, grid: Grid, p: seq<nat>)
    requires FromCatalog(s.queue) && IsShuffle(p)
    requires Collision(s.current.shape, s.current.x, s.current.y + 1, s.locked)
    ensures Gravity(s, grid, p) == LockAndSpawn(s, grid, p)
  {
    var c := s.current;
    assert Collision(c.shape, c.x, c.y + 1, s.locked);
  }

  /** Shift the falling piece by `(dx, dy)` when the target is free. */
  function TryMove(s: Session, dx: int, dy: int): (t: Session)
    ensures t == s.(current := t.current)
    ensures t.locked == s.locked && t.score == s.score && t.running == s.running
    ensures t.current.shape == s.current.shape && t.current.color == s.current.color
    ensures !Collision(t.current.shape, t.current.x, t.current.y, s.locked)
      || t.current == s.current
    ensures t.current == s.current
      || (t.current.x == s.current.x + dx && t.current.y == s.current.y + dy)
    ensures !Collision(s.current.shape, s.current.x + dx, s.current.y + dy, s.locked) ==>
      t.current == s.current.(x := s.current.x + dx, y := s.current.y + dy)
    ensures Collision(s.current.shape, s.current.x + dx, s.current.y + dy, s.locked) ==> t == s
  {
    var c := s.current;
    if !Collision(c.shape, c.x + dx, c.y + dy, s.locked) then s.(current := c.(x := c.x + dx, y := c.y + dy))
    else s
  }

  /** The hard drop: the piece falls to where the ghost projection shows
      it, scores two points per row fallen, then locks there. */
  function HardDrop(s: Session, grid: Grid, p: seq<nat>): (t: Session)
    requires Playable(s) && IsShuffle(p)
    ensures var g := GhostPiece(s.current, s.locked);
      var c := ClearRows(grid, LockPiece(g, s.locked));
      && t.locked == c.1
      && t.lines == s.lines + c.0
      && t.score == s.score + 2 * (g.y - s.current.y) + Award(c.0, s.level)
      && t.level == (if c.0 > 0 then t.lines / 10 + 1 else s.level)
    ensures t.current == NextPiece(s.queue, p).0 && t.queue == NextPiece(s.queue, p).1
    ensures !t.holdUsed && t.hold == s.hold
    ensures t.running <==> s.running && !Collision(t.current.shape, t.current.x, t.current.y, t.locked)
  {
    var g := GhostPiece(s.current, s.locked);
    LockAndSpawn(s.(current := g, score := s.score + 2 * (g.y - s.current.y)), grid, p)
  }

  /** The hold key (tetris.py:249-259). Once per piece: the first hold
      parks the falling piece and draws the next one, with no top-out
      check; later holds swap the falling piece with the held one, which
      respawns at the top in its own colour. */
  function Hold(s: Session, p: seq<nat>): (t: Session)
    requires FromCatalog(s.queue) && IsShuffle(p)
    ensures s.holdUsed ==> t == s
    ensures !s.holdUsed ==> t.holdUsed && t.hold == Some(Held(s.current.shape, s.current.color))
    ensures t.locked == s.locked && t.score == s.score && t.running == s.running
    ensures t.lines == s.lines && t.level == s.level
    ensures !s.holdUsed && s.hold.Some? ==>
      t.current == Piece(s.hold.value.shape, s.hold.value.color, t.current.x, 0)
      && t.queue == s.queue
    ensures !s.holdUsed && s.hold.Some? && |s.hold.value.shape| > 0 ==>
      t.current.x == SpawnX(s.hold.value.shape)
    ensures !s.holdUsed && s.hold.None? ==>
      t.current == NextPiece(s.queue, p).0 && t.queue == NextPiece(s.queue, p).1
  {
    if s.holdUsed then s
    else
      var parked := Some(Held(s.current.shape, s.current.color));
      match s.hold
      case None =>
        var d := NextPiece(s.queue, p);
        s.(hold := parked, current := d.0, queue := d.1, holdUsed := true)
      case Some(h) =>
        var x := if |h.shape| > 0 then SpawnX(h.shape) else s.current.x;
        s.(hold := parked, current := Piece(h.shape, h.color, x, 0), holdUsed := true)
  }

  /** The hold key as written: the piece taken back gets the colour of
      its shape's position in the catalog, which exists only for an
      unrotated shape. A used hold does nothing and looks nothing up.
      Apart from that colour it is the corrected `Hold`. */
  function HoldAsWritten(s: Session, p: seq<nat>): (t: Session)
    requires FromCatalog(s.queue) && IsShuffle(p)
    requires !s.holdUsed && s.hold.Some? ==> s.hold.value.shape in Catalog
    ensures s.holdUsed ==> t == s
    ensures !s.holdUsed && s.hold.Some? ==> t.current.color == ColorOf(s.hold.value.shape)
    ensures t == Hold(s, p).(current := Hold(s, p).current.(color := t.current.color))
    ensures t.locked == s.locked && t.score == s.score && t.running == s.running
  {
    var t := Hold(s, p);
    if !s.holdUsed && s.hold.Some? then t.(current := t.current.(color := ColorOf(s.hold.value.shape)))
    else t
  }

  /** A rotated piece can be parked: after it, the catalog lookup of the
      hold swap has no answer, while the corrected hold gives the piece
      back in its own colour. */
  lemma RotatedHoldLeavesCatalog(s: Session, p: seq<nat>)
    requires Valid(s) && IsShuffle(p) && !s.holdUsed && s.hold.None?
    requires s.current.shape == Rotate(ShapeT) && s.current.color == Colors[2]
    ensures Hold(s, p).hold.Some?
    ensures Hold(s, p).hold.value.shape !in Catalog
    ensures Hold(s, p).hold.value.color == Colors[2]
  {
    TurnedShapeLeavesCatalog(2);
  }

  /** Right after parking a turned T, a second hold as written is idle:
      the hold is used, so no catalog lookup happens. */
  lemma RotatedHoldIdleUntilLock(s: Session, p: seq<nat>, p': seq<nat>)
    requires Valid(s) && IsShuffle(p) && IsShuffle(p') && !s.holdUsed && s.hold.None?
    requires s.current.shape == Rotate(ShapeT) && s.current.color == Colors[2]
    ensures var t := Hold(s, p); t.holdUsed && HoldAsWritten(t, p') == t
  {
  }

  /** A swap, a lock, and a swap again: the second swap gives back the
      piece the first one parked, shape and colour, and parks the piece
      the lock spawned. */
  lemma HoldSwapTwice(s: Session, grid: Grid, p: seq<nat>, q: seq<nat>, p': seq<nat>)
    requires FromCatalog(s.queue) && IsShuffle(p) && IsShuffle(q) && IsShuffle(p')
    requires !s.holdUsed && s.hold.Some?
    ensures var t := Hold(s, p);
      var u := LockAndSpawn(t, grid, q);
      var v := Hold(u, p');
      && v.current.shape == s.current.shape && v.current.color == s.current.color
      && v.hold == Some(Held(u.current.shape, u.current.color))
  {
  }

  /** One key event, against the frame's grid. The shuffle `p` is used
      only if the event spawns a piece from an empty queue. */
  function Step(s: Session, grid: Grid, e: Event, p: seq<nat>): (t: Session)
    requires Playable(s) && IsShuffle(p)
    ensures t.score >= s.score && t.lines >= s.lines
    ensures e == Quit ==> t == s.(running := false)
    ensures e != Quit && e != Space && e != HoldKey ==> t.locked == s.locked && t.running == s.running
    ensures e != Space && e != HoldKey ==>
      t.holdUsed == s.holdUsed && t.hold == s.hold && t.queue == s.queue
      && t.lines == s.lines && t.level == s.level
  {
    match e
    case Quit => s.(running := false)
    case Left => TryMove(s, -1, 0)
    case Right => TryMove(s, 1, 0)
    case Down =>
      var t := TryMove(s, 0, 1);
      if t.current != s.current then t.(score := s.score + 1) else s
    case Up => s.(current := RotatePiece(s.current))
    case Space => HardDrop(s, grid, p)
    case HoldKey => Hold(s, p)
    case Other => s
  }

  /** Which handler each key runs (tetris.py:221-259): the arrows are
      guarded moves, up turns the piece when the turn stays on the board,
      space hard-drops, C holds, and any other key changes nothing. */
  lemma StepDispatch(s: Session, grid: Grid, e: Event, p: seq<nat>)
    requires Playable(s) && IsShuffle(p)
    ensures e == Left ==> Step(s, grid, e, p) == TryMove(s, -1, 0)
    ensures e == Right ==> Step(s, grid, e, p) == TryMove(s, 1, 0)
    ensures e == Down && !Collision(s.current.shape, s.current.x, s.current.y + 1, s.locked) ==>
      Step(s, grid, e, p) == TryMove(s, 0, 1).(score := s.score + 1)
    ensures e == Down && Collision(s.current.shape, s.current.x, s.current.y + 1, s.locked) ==>
      Step(s, grid, e, p) == s
    ensures e == Up ==> Step(s, grid, e, p) == s.(current := RotatePiece(s.current))
    ensures e == Space ==> Step(s, grid, e, p) == HardDrop(s, grid, p)
    ensures e == HoldKey ==> Step(s, grid, e, p) == Hold(s, p)
    ensures e == Other ==> Step(s, grid, e, p) == s
  {
  }

  /** A soft drop that moves the piece scores exactly one point. */
  lemma SoftDropScores(s: Session, grid: Grid, p: seq<nat>)
    requires Playable(s) && IsShuffle(p)
    ensures var t := Step(s, grid, Down, p);
      !Collision(s.current.shape, s.current.x, s.current.y + 1, s.locked) ==>
        t.score == s.score + 1 && t.current.y == s.current.y + 1
    ensures var t := Step(s, grid, Down, p);
      Collision(s.current.shape, s.current.x, s.current.y + 1, s.locked) ==> t == s
  {
  }

  /** The hold key does nothing a second time before the next lock:
      after a hold, any events without a hard drop keep the hold used,
      and a further hold changes nothing. */
  lemma HoldOncePerPiece(s: Session, grid: Grid, p: seq<nat>, es: seq<Event>, ps: seq<seq<nat>>, p': seq<nat>)
    requires Valid(s) && |grid| <= Rows && IsShuffle(p) && IsShuffle(p') && !s.holdUsed
    requires |ps| == |es| && (forall i | 0 <= i < |ps| :: IsShuffle(ps[i])) && Space !in es
    ensures var t := Step(s, grid, HoldKey, p);
      Valid(t) && t.holdUsed
      && (var u := Events(t, grid, es, ps); u.holdUsed && u.hold == t.hold && Step(u, grid, HoldKey, p') == u)
  {
    var t := Step(s, grid, HoldKey, p);
    StepValid(s, grid, HoldKey, p);
    HeldUntilLock(t, grid, es, ps);
  }

  /** Without a hard drop, events keep a used hold used and the slot as
      it is. */
  lemma {:induction false} HeldUntilLock(s: Session, grid: Grid, es: seq<Event>, ps: seq<seq<nat>>)
    requires Valid(s) && |grid| <= Rows && |ps| == |es| && s.holdUsed
    requires (forall i | 0 <= i < |ps| :: IsShuffle(ps[i])) && Space !in es
    ensures var u := Events(s, grid, es, ps); u.holdUsed && u.hold == s.hold
    decreases |es|
  {
    if es != [] {
      StepValid(s, grid, es[0], ps[0]);
      var s' := Step(s, grid, es[0], ps[0]);
      assert es[0] != Space;
      assert s'.holdUsed && s'.hold == s.hold;
      assert Space !in es[1..] by {
        assert forall i | 0 <= i < |es[1..]| :: es[1..][i] == es[i + 1];
      }
      HeldUntilLock(s', grid, es[1..], ps[1..]);
      assert Events(s, grid, es, ps) == Events(s', grid, es[1..], ps[1..]);
    }
  }

  lemma TryMoveValid(s: Session, dx: int, dy: int)
    requires Valid(s)
    ensures Valid(TryMove(s, dx, dy))
  {
    var c := s.current;
    CollisionBounds(c.shape, c.x + dx, c.y + dy, s.locked);
  }

  lemma HardDropValid(s: Session, grid: Grid, p: seq<nat>)
    requires Valid(s) && IsShuffle(p) && |grid| <= Rows
    ensures Valid(HardDrop(s, grid, p))
  {
    var g := GhostPiece(s.current, s.locked);
    LockAndSpawnValid(s.(current := g, score := s.score + 2 * (g.y - s.current.y)), grid, p);
  }

  lemma HoldValid(s: Session, p: seq<nat>)
    requires Valid(s) && IsShuffle(p)
    ensures Valid(Hold(s, p))
  {
    if !s.holdUsed {
      CatalogWellShaped();
      if s.hold.Some? {
        SpawnInBounds(s.hold.value.shape);
      } else {
        var d := NextPiece(s.queue, p);
        assert d.0.color == ColorOf(d.0.shape);
        DrawKeepsBagRest(s.queue, p);
      }
    }
  }

  /** Every event keeps the session valid. */
  lemma StepValid(s: Session, grid: Grid, e: Event, p: seq<nat>)
    requires Valid(s) && IsShuffle(p) && |grid| <= Rows
    ensures Valid(Step(s, grid, e, p))
  {
    match e
    case Left => TryMoveValid(s, -1, 0);
    case Right => TryMoveValid(s, 1, 0);
    case Down => TryMoveValid(s, 0, 1);
    case Up => RotateWellShaped(s.current.shape);
    case Space => HardDropValid(s, grid, p);
    case HoldKey => HoldValid(s, p);
    case Quit =>
    case Other =>
  }

  lemma GravityLockValid(s: Session, grid: Grid, p: seq<nat>)
    requires Valid(s) && IsShuffle(p) && |grid| <= Rows
    requires Collision(s.current.shape, s.current.x, s.current.y + 1, s.locked)
    ensures var t := Gravity(s, grid, p);
      Valid(t) && t.score >= s.score && t.lines >= s.lines && (t.running ==> s.running)
  {
    LockAndSpawnValid(s, grid, p);
  }

  lemma GravityValid(s: Session, grid: Grid, p: seq<nat>)
    requires Valid(s) && IsShuffle(p) && |grid| <= Rows
    ensures var t := Gravity(s, grid, p);
      Valid(t) && t.score >= s.score && t.lines >= s.lines && (t.running ==> s.running)
  {
    var c := s.current;
    if Collision(c.shape, c.x, c.y + 1, s.locked) {
      GravityLockValid(s, grid, p);
    } else {
      TryMoveValid(s, 0, 1);
      assert Gravity(s, grid, p) == TryMove(s, 0, 1);
    }
  }

  // ---------------------------------------------------------------------
  // A frame (tetris.py:197-259)
  // ---------------------------------------------------------------------

  /** The events of one frame, in order, each with the shuffle it would
      use. */
  function Events(s: Session, grid: Grid, es: seq<Event>, ps: seq<seq<nat>>): (t: Session)
    requires Valid(s) && |grid| <= Rows && |ps| == |es|
    requires forall i | 0 <= i < |ps| :: IsShuffle(ps[i])
    ensures Valid(t) && t.score >= s.score && t.lines >= s.lines
    ensures Quit in es || !s.running ==> !t.running
    decreases |es|
  {
    if es == [] then s
    else
      StepValid(s, grid, es[0], ps[0]);
      var s' := Step(s, grid, es[0], ps[0]);
      assert Quit in es ==> es[0] == Quit || Quit in es[1..];
      assert s'.running ==> s.running by {
        if es[0] == Space || es[0] == HoldKey {
          assert Playable(s);
        }
      }
      Events(s', grid, es[1..], ps[1..])
  }

  /** One pass of the main loop: the grid is projected from the locked
      map as it stands at the start of the frame; then gravity acts if
      its timer is `due`, with shuffle `ps[0]`, and the events follow,
      all against that same grid. Events are still handled after the
      game has ended within the frame. */
  function Frame(s: Session, due: bool, es: seq<Event>, ps: seq<seq<nat>>): (t: Session)
    requires Valid(s) && |ps| == |es| + 1
    requires forall i | 0 <= i < |ps| :: IsShuffle(ps[i])
    ensures Valid(t) && t.score >= s.score && t.lines >= s.lines
    ensures Quit in es || !s.running ==> !t.running
  {
    var grid := CreateGrid(s.locked);
    GravityValid(s, grid, ps[0]);
    var s' := if due then Gravity(s, grid, ps[0]) else s;
    assert Valid(s') && s'.score >= s.score && s'.lines >= s.lines && (s'.running ==> s.running);
    Events(s', grid, es, ps[1..])
  }

  /** A frame whose fall is due: gravity, then the events, both against
      the grid of the frame's first map. */
  lemma FrameGravityThenEvents(s: Session, es: seq<Event>, ps: seq<seq<nat>>)
    requires Valid(s) && |ps| == |es| + 1 && AllShuffles(ps)
    ensures AllShuffles(ps[1..])
    ensures var grid := CreateGrid(s.locked);
      var g := Gravity(s, grid, ps[0]);
      && Valid(g)
      && Frame(s, true, es, ps) == Events(g, grid, es, ps[1..])
  {
    var grid := CreateGrid(s.locked);
    GravityValid(s, grid, ps[0]);
    AllShufflesSlice(ps, 1, |ps|);
    assert ps[1..] == ps[1..|ps|];
  }

  /** A frame whose due fall finds the row below taken: the lock against
      the frame's grid, then the events against that same grid. */
  lemma FrameGravityLocks(s: Session, es: seq<Event>, ps: seq<seq<nat>>)
    requires Valid(s) && |ps| == |es| + 1 && AllShuffles(ps)
    requires Collision(s.current.shape, s.current.x, s.current.y + 1, s.locked)
    ensures AllShuffles(ps[1..])
    ensures var grid := CreateGrid(s.locked);
      var t := LockAndSpawn(s, grid, ps[0]);
      && Valid(t)
      && Frame(s, true, es, ps) == Events(t, grid, es, ps[1..])
  {
    FrameGravityThenEvents(s, es, ps);
    GravityLocks(s, CreateGrid(s.locked), ps[0]);
  }

  /** A frame whose fall is not due: the events alone, against the grid
      of the frame's first map. */
  lemma FrameNotDue(s: Session, es: seq<Event>, ps: seq<seq<nat>>)
    requires Valid(s) && |ps| == |es| + 1 && AllShuffles(ps)
    ensures AllShuffles(ps[1..])
    ensures Frame(s, false, es, ps) == Events(s, CreateGrid(s.locked), es, ps[1..])
  {
    AllShufflesSlice(ps, 1, |ps|);
    assert ps[1..] == ps[1..|ps|];
  }

  // ---------------------------------------------------------------------
  // The stale grid
  // ---------------------------------------------------------------------

  /** Six cells at the left of the bottom row. */
  function SixOnFloor(): Locked
  {
    map x | 0 <= x < 6 :: (x, 19) := Colors[0]
  }

  lemma SixOnFloorFacts()
    ensures Projectable(SixOnFloor()) && NoBackground(SixOnFloor())
    ensures FullRowsOf(SixOnFloor()) == {}
  {
    var before := SixOnFloor();
    CatalogDistinct();
    forall y | 0 <= y < Rows
      ensures !RowComplete(before, y)
    {
      assert (9, y) !in before;
    }
  }

  /** The first six cells of the bottom row are filled. */
  lemma SixOnFloorLeft()
    ensures forall x | 0 <= x < 6 :: (x, 19) in SixOnFloor()
  {
    forall x | 0 <= x < 6
      ensures (x, 19) in SixOnFloor()
    {
    }
  }

  /** An I piece lying at column 6 of the bottom row covers its last four
      cells. */
  lemma IPieceCoversRight()
    ensures forall x | 6 <= x < Cols :: Covers(Piece(ShapeI, Colors[0], 6, 19), (x, 19))
  {
    forall x | 6 <= x < Cols
      ensures Covers(Piece(ShapeI, Colors[0], 6, 19), (x, 19))
    {
    }
  }

  lemma IPieceCompletesFloor()
    ensures RowComplete(LockPiece(Piece(ShapeI, Colors[0], 6, 19), SixOnFloor()), 19)
  {
    SixOnFloorLeft();
    IPieceCoversRight();
  }

  /** With the grid projected before the lock, nothing is cleared. */
  lemma StaleClearNothing(locked: Locked)
    ensures ClearRows(CreateGrid(SixOnFloor()), locked) == (0, locked)
  {
    SixOnFloorFacts();
    ClearRowsOnStaleGrid(SixOnFloor(), locked);
  }

  /** A lock that completes a row in the middle of a frame scores nothing
      for it: the I piece lands in the last four columns of a bottom row
      whose first six cells are filled, but the frame's grid predates the
      lock, so no row is cleared and the full row stays on the board. */
  lemma StaleGridKeepsCompletedRow(s: Session, p: seq<nat>)
    requires FromCatalog(s.queue) && IsShuffle(p)
    requires s.locked == SixOnFloor()
    requires s.current == Piece(ShapeI, Colors[0], 6, 19)
    ensures var t := LockAndSpawn(s, CreateGrid(s.locked), p);
      t.lines == s.lines && t.score == s.score && RowComplete(t.locked, 19)
  {
    IPieceCompletesFloor();
    StaleClearNothing(LockPiece(s.current, s.locked));
    LockWithoutClear(s, CreateGrid(s.locked), p);
  }

  /** Two locks against one grid: gravity locks the piece, and a hard drop
      in the same frame locks the next one. Both clear the grid's full
      rows. With one full row `y`, each lock collapses row `y` of the map
      it finds: the second counts and scores the row again, and deletes
      whatever the hard drop put into row `y` together with the runs
      resting on it. */
  lemma TwoLocksOneGrid(s: Session, grid: Grid, p: seq<nat>, q: seq<nat>, y: int)
    requires FromCatalog(s.queue) && IsShuffle(p) && IsShuffle(q)
    requires Collision(s.current.shape, s.current.x, s.current.y + 1, s.locked)
    requires FullRowsBelow(grid, |grid|) == {y}
    ensures var t := Gravity(s, grid, p);
      && Playable(t)
      && t.locked == Collapse(y, LockPiece(s.current, s.locked))
      && var u := HardDrop(t, grid, q);
      && u.locked == Collapse(y, LockPiece(GhostPiece(t.current, t.locked), t.locked))
      && u.lines == s.lines + 2
  {
    GravityLocks(s, grid, p);
    var t := LockAndSpawn(s, grid, p);
    CatalogWellShaped();
    assert HasFilled(t.current.shape);
    ClearRowsOneFullRow(grid, LockPiece(s.current, s.locked), y);
    ClearRowsOneFullRow(grid, LockPiece(GhostPiece(t.current, t.locked), t.locked), y);
  }

  /** The same in a whole frame: the timed fall locks the I piece on the
      bottom row, the frame's grid predates that lock, and the frame ends
      with the bottom row full, no line counted and no points. */
  lemma FrameKeepsCompletedRow(s: Session, ps: seq<seq<nat>>)
    requires Valid(s) && |ps| == 1 && AllShuffles(ps)
    requires s.locked == SixOnFloor()
    requires s.current == Piece(ShapeI, Colors[0], 6, 19)
    ensures var t := Frame(s, true, [], ps);
      t.lines == s.lines && t.score == s.score && RowComplete(t.locked, 19)
  {
    FloorCollides(ShapeI, 6, 20, s.locked);
    FrameGravityLocks(s, [], ps);
    StaleGridKeepsCompletedRow(s, ps[0]);
  }

  /** A lock that clears no row leaves the line count and the score as
      they were and keeps every locked cell. */
  lemma LockWithoutClear(s: Session, grid: Grid, p: seq<nat>)
    requires FromCatalog(s.queue) && IsShuffle(p)
    requires ClearRows(grid, LockPiece(s.current, s.locked)).0 == 0
    ensures var t := LockAndSpawn(s, grid, p);
      t.lines == s.lines && t.score == s.score && t.locked == LockPiece(s.current, s.locked)
  {
  }
}

=== FILE: lineclear.dfy ===
/** Line clearing (tetris.py:94-109). `del_row` walks the locked keys in
    ascending row order and, for each key above the cleared row, pops its
    entry and stores it one row lower; keys in the cleared row are deleted.
    Because a moved entry lands on a key that is visited later, it is moved
    again: the result is not a shift by one row (see `Collapse`). */
module LineClear {
  import opened Shapes
  import opened Board

  // ---------------------------------------------------------------------
  // del_row as written: a fold over the sorted keys
  // ---------------------------------------------------------------------

  /** One iteration of the loop in `del_row`: `locked[(x, y + 1)] =
      locked.pop((x, y))` above the row, `del locked[(x, y)]` in it. */
  function DelRowStep(row: int, m: Locked, k: Key): (r: Locked)
    requires k.1 <= row ==> k in m
    ensures k.1 < row ==> r.Keys == m.Keys - {k} + {(k.0, k.1 + 1)} && r[(k.0, k.1 + 1)] == m[k]
    ensures k.1 == row ==> r.Keys == m.Keys - {k}
    ensures k.1 > row ==> r == m
    ensures r - {k, (k.0, k.1 + 1)} == m - {k, (k.0, k.1 + 1)}
  {
    if k.1 < row then (m - {k})[(k.0, k.1 + 1) := m[k]]
    else if k.1 == row then m - {k}
    else m
  }

  /** The keys in non-decreasing row order. */
  predicate RowSorted(ks: seq<Key>)
  {
    forall i, j | 0 <= i < j < |ks| :: ks[i].1 <= ks[j].1
  }

  /** `ks` lists every key of `locked` exactly once. */
  predicate Enumerates(ks: seq<Key>, locked: Locked)
  {
    Distinct(ks) && (forall k | k in ks :: k in locked) && (forall k | k in locked :: k in ks)
  }

  /** The loop of `del_row` over the keys `ks[i..]`. Every key still to
      be visited at or above the row is present when it is visited, so
      `pop` and `del` never fail. `DelRowFoldSize` and `DelRowFoldIsCollapse`
      state what it computes. */
  function DelRowFold(row: int, m: Locked, ks: seq<Key>, i: nat): Locked
    requires Distinct(ks) && i <= |ks|
    requires forall j | i <= j < |ks| && ks[j].1 <= row :: ks[j] in m
    decreases |ks| - i
  {
    if i == |ks| then m
    else DelRowFold(row, DelRowStep(row, m, ks[i]), ks, i + 1)
  }

  // ---------------------------------------------------------------------
  // What the fold computes, in closed form
  // ---------------------------------------------------------------------

  /** The locked keys in column `x` strictly above row `y`. */
  function ColumnAbove(locked: Locked, x: int, y: int): set<Key>
  {
    set k | k in locked && k.0 == x && k.1 < y
  }

  /** The top row of the vertical run of locked cells in column `x` that
      ends at row `y`. */
  function RunTop(locked: Locked, x: int, y: int): (t: int)
    requires (x, y) in locked
    ensures t <= y && (x, t) in locked && (x, t - 1) !in locked
    ensures forall z | t <= z <= y :: (x, z) in locked
    decreases |ColumnAbove(locked, x, y)|
  {
    if (x, y - 1) in locked then
      assert ColumnAbove(locked, x, y - 1) == ColumnAbove(locked, x, y) - {(x, y - 1)};
      RunTop(locked, x, y - 1)
    else y
  }

  /** Every key moved one row down. */
  function Shifted(keys: set<Key>): set<Key>
  {
    set k | k in keys :: (k.0, k.1 + 1)
  }

  lemma ShiftedMember(keys: set<Key>, p: Key)
    ensures p in Shifted(keys) <==> (p.0, p.1 - 1) in keys
  {
    if (p.0, p.1 - 1) in keys {
      var k := (p.0, p.1 - 1);
      assert (k.0, k.1 + 1) == p;
    }
  }

  /** The result of `del_row(row, locked)`: entries below the row stay; at
      or above the row, a cell is filled exactly when the cell above it was
      the lowest cell of a vertical run, and it takes the colour of the top
      of that run. So every run above the row collapses to one cell one
      row below its bottom, and a run resting on a filled cell of the
      cleared row disappears. */
  predicate InCollapse(row: int, locked: Locked, p: Key)
  {
    (p.1 > row && p in locked) || (p.1 <= row && p !in locked && (p.0, p.1 - 1) in locked)
  }

  function CollapseValue(row: int, locked: Locked, p: Key): Color
    requires InCollapse(row, locked, p)
  {
    if p.1 > row then locked[p] else locked[(p.0, RunTop(locked, p.0, p.1 - 1))]
  }

  function Collapse(row: int, locked: Locked): (r: Locked)
    ensures forall p :: p in r <==> InCollapse(row, locked, p)
    ensures forall p | p in r :: r[p] == CollapseValue(row, locked, p)
  {
    forall p ensures p in Shifted(locked.Keys) <==> (p.0, p.1 - 1) in locked {
      ShiftedMember(locked.Keys, p);
    }
    map p | p in locked.Keys + Shifted(locked.Keys) && InCollapse(row, locked, p)
      :: CollapseValue(row, locked, p)
  }

  /** The state of the fold once the keys in `done` (a prefix of the
      sorted keys) have been visited: the same description as `Collapse`,
      restricted to the visited keys. */
  predicate InPartial(row: int, locked: Locked, done: set<Key>, p: Key)
  {
    (p in locked && (p.1 > row || p !in done))
    || (p.1 <= row && p !in done && (p.0, p.1 - 1) in done)
  }

  function PartialValue(row: int, locked: Locked, done: set<Key>, p: Key): Color
    requires done <= locked.Keys && InPartial(row, locked, done, p)
  {
    if p.1 <= row && (p.0, p.1 - 1) in done
    then locked[(p.0, RunTop(locked, p.0, p.1 - 1))] else locked[p]
  }

  function Partial(row: int, locked: Locked, done: set<Key>): (r: Locked)
    requires done <= locked.Keys
    ensures forall p :: p in r <==> InPartial(row, locked, done, p)
    ensures forall p | p in r :: r[p] == PartialValue(row, locked, done, p)
  {
    forall p ensures p in Shifted(done) <==> (p.0, p.1 - 1) in done {
      ShiftedMember(done, p);
    }
    map p | p in locked.Keys + Shifted(done) && InPartial(row, locked, done, p)
      :: PartialValue(row, locked, done, p)
  }

  /** The conditions under which `k` is the next key the fold visits. */
  predicate NextKey(locked: Locked, done: set<Key>, k: Key)
  {
    && done <= locked.Keys && k in locked && k !in done
    && (forall q | q in locked && q.1 < k.1 :: q in done)
    && (forall q | q in done :: q.1 <= k.1)
  }

  /** The entry of a key above the row lands on the key below it, with
      the colour of the top of its run. */
  lemma PartialStepAboveLanding(row: int, locked: Locked, done: set<Key>, k: Key)
    requires NextKey(locked, done, k) && k.1 < row
    ensures k in Partial(row, locked, done)
    ensures (k.0, k.1 + 1) in Partial(row, locked, done + {k})
    ensures Partial(row, locked, done + {k})[(k.0, k.1 + 1)] == Partial(row, locked, done)[k]
  {
    var below := (k.0, k.1 + 1);
    assert InPartial(row, locked, done, k);
    assert below !in done;
    assert (below.0, below.1 - 1) == k;
    assert InPartial(row, locked, done + {k}, below);
    assert (k.0, k.1 - 1) in done <==> (k.0, k.1 - 1) in locked;
  }

  /** Away from the landing cell, moving the entry of a key above the
      row agrees with the state after the visit. */
  lemma PartialStepAboveElsewhere(row: int, locked: Locked, done: set<Key>, k: Key, p: Key)
    requires NextKey(locked, done, k) && k.1 < row && p != (k.0, k.1 + 1)
    requires k in Partial(row, locked, done)
    ensures var m := Partial(row, locked, done);
      var m' := Partial(row, locked, done + {k});
      (p in m && p != k <==> p in m') && (p in m' ==> m'[p] == m[p])
  {
    if p == k {
      assert !InPartial(row, locked, done + {k}, k);
    } else {
      assert (p.0, p.1 - 1) in done + {k} <==> (p.0, p.1 - 1) in done;
    }
  }

  lemma PartialStepAbove(row: int, locked: Locked, done: set<Key>, k: Key)
    requires NextKey(locked, done, k) && k.1 < row
    ensures k in Partial(row, locked, done)
    ensures DelRowStep(row, Partial(row, locked, done), k) == Partial(row, locked, done + {k})
  {
    PartialStepAboveLanding(row, locked, done, k);
    var m := Partial(row, locked, done);
    var m' := Partial(row, locked, done + {k});
    var below := (k.0, k.1 + 1);
    var s := (m - {k})[below := m[k]];
    forall p | p != below
      ensures p in s <==> p in m'
      ensures p in s ==> s[p] == m'[p]
    {
      PartialStepAboveElsewhere(row, locked, done, k, p);
    }
    assert s == m';
  }

  /** A key in the row: its entry is deleted. */
  lemma PartialStepOn(row: int, locked: Locked, done: set<Key>, k: Key)
    requires NextKey(locked, done, k) && k.1 == row
    ensures k in Partial(row, locked, done)
    ensures DelRowStep(row, Partial(row, locked, done), k) == Partial(row, locked, done + {k})
  {
    var m := Partial(row, locked, done);
    var m' := Partial(row, locked, done + {k});
    assert InPartial(row, locked, done, k);
    var s := m - {k};
    forall p | p != k
      ensures p in s <==> p in m'
      ensures p in s ==> s[p] == m'[p]
    {
      assert (p.0, p.1 - 1) in done + {k} <==> (p.0, p.1 - 1) in done || (p.0, p.1 - 1) == k;
    }
    assert !InPartial(row, locked, done + {k}, k);
    assert s == m';
  }

  /** A key below the row: nothing happens. */
  lemma PartialStepBelow(row: int, locked: Locked, done: set<Key>, k: Key)
    requires NextKey(locked, done, k) && k.1 > row
    ensures DelRowStep(row, Partial(row, locked, done), k) == Partial(row, locked, done + {k})
  {
    var m := Partial(row, locked, done);
    var m' := Partial(row, locked, done + {k});
    forall p
      ensures p in m <==> p in m'
      ensures p in m ==> m[p] == m'[p]
    {
      assert (p.0, p.1 - 1) in done + {k} <==> (p.0, p.1 - 1) in done || (p.0, p.1 - 1) == k;
    }
    assert m == m';
  }

  /** The keys of a sequence before position `i`. */
  function Prefix(ks: seq<Key>, i: nat): set<Key>
    requires i <= |ks|
  {
    set j | 0 <= j < i :: ks[j]
  }

  /** What a row-sorted listing tells about its prefix `ks[..i]`. */
  lemma PrefixFacts(locked: Locked, ks: seq<Key>, i: nat)
    requires Enumerates(ks, locked) && RowSorted(ks) && i <= |ks|
    ensures Prefix(ks, i) <= locked.Keys
    ensures forall j | i <= j < |ks| :: ks[j] !in Prefix(ks, i)
    ensures i < |ks| ==> NextKey(locked, Prefix(ks, i), ks[i])
    ensures i < |ks| ==> Prefix(ks, i + 1) == Prefix(ks, i) + {ks[i]}
    ensures i == |ks| ==> Prefix(ks, i) == locked.Keys
  {
    var done := Prefix(ks, i);
    forall j | i <= j < |ks|
      ensures ks[j] !in done
    {
      forall b | 0 <= b < i
        ensures ks[b] != ks[j]
      {
      }
    }
    if i < |ks| {
      var k := ks[i];
      forall q | q in locked && q.1 < k.1
        ensures q in done
      {
        var a :| 0 <= a < |ks| && ks[a] == q;
      }
      forall q | q in done
        ensures q.1 <= k.1
      {
        var b :| 0 <= b < i && ks[b] == q;
      }
      assert Prefix(ks, i + 1) == done + {k};
    } else {
      forall q | q in locked
        ensures q in done
      {
        var a :| 0 <= a < |ks| && ks[a] == q;
      }
    }
  }

  /** One step of the fold from the state after `done`. */
  lemma PartialStep(row: int, locked: Locked, done: set<Key>, k: Key)
    requires NextKey(locked, done, k)
    ensures k.1 <= row ==> k in Partial(row, locked, done)
    ensures DelRowStep(row, Partial(row, locked, done), k) == Partial(row, locked, done + {k})
  {
    if k.1 < row {
      PartialStepAbove(row, locked, done, k);
    } else if k.1 == row {
      PartialStepOn(row, locked, done, k);
    } else {
      PartialStepBelow(row, locked, done, k);
    }
  }

  /** Every key not yet visited at or above the row is still present. */
  lemma PendingPresent(row: int, locked: Locked, ks: seq<Key>, i: nat)
    requires Enumerates(ks, locked) && RowSorted(ks) && i <= |ks|
    ensures Prefix(ks, i) <= locked.Keys
    ensures forall j | i <= j < |ks| && ks[j].1 <= row :: ks[j] in Partial(row, locked, Prefix(ks, i))
  {
    PrefixFacts(locked, ks, i);
    var done := Prefix(ks, i);
    forall j | i <= j < |ks| && ks[j].1 <= row
      ensures ks[j] in Partial(row, locked, done)
    {
      assert InPartial(row, locked, done, ks[j]);
    }
  }

  /** The fold's step from the state after `ks[..i]` reaches the state
      after `ks[..i+1]`. */
  lemma NextStep(row: int, locked: Locked, ks: seq<Key>, i: nat)
    requires Enumerates(ks, locked) && RowSorted(ks) && i < |ks|
    ensures Prefix(ks, i) <= locked.Keys
    ensures ks[i].1 <= row ==> ks[i] in Partial(row, locked, Prefix(ks, i))
    ensures DelRowStep(row, Partial(row, locked, Prefix(ks, i)), ks[i])
      == Partial(row, locked, Prefix(ks, i + 1))
  {
    PrefixFacts(locked, ks, i);
    PartialStep(row, locked, Prefix(ks, i), ks[i]);
  }

  lemma {:induction false} FoldFromPartial(row: int, locked: Locked, ks: seq<Key>, i: nat)
    requires Enumerates(ks, locked) && RowSorted(ks) && i <= |ks|
    ensures Prefix(ks, i) <= locked.Keys
    ensures forall j | i <= j < |ks| && ks[j].1 <= row :: ks[j] in Partial(row, locked, Prefix(ks, i))
    ensures DelRowFold(row, Partial(row, locked, Prefix(ks, i)), ks, i)
      == Partial(row, locked, locked.Keys)
    decreases |ks| - i
  {
    PendingPresent(row, locked, ks, i);
    if i < |ks| {
      NextStep(row, locked, ks, i);
      FoldFromPartial(row, locked, ks, i + 1);
    } else {
      PrefixFacts(locked, ks, i);
    }
  }

  lemma PartialEnds(row: int, locked: Locked)
    ensures Partial(row, locked, {}) == locked
    ensures Partial(row, locked, locked.Keys) == Collapse(row, locked)
  {
    var a := Partial(row, locked, {});
    forall p
      ensures p in a <==> p in locked
      ensures p in a ==> a[p] == locked[p]
    {
    }
    var b := Partial(row, locked, locked.Keys);
    var c := Collapse(row, locked);
    forall p
      ensures p in b <==> p in c
      ensures p in b ==> b[p] == c[p]
    {
      assert InPartial(row, locked, locked.Keys, p) <==> InCollapse(row, locked, p);
    }
  }

  /** The fold of `del_row` over ANY row-sorted listing of the keys gives
      `Collapse`: the order Python picks among keys of one row does not
      matter. */
  lemma DelRowFoldIsCollapse(row: int, locked: Locked, ks: seq<Key>)
    requires Enumerates(ks, locked) && RowSorted(ks)
    ensures forall j | 0 <= j < |ks| && ks[j].1 <= row :: ks[j] in locked
    ensures DelRowFold(row, locked, ks, 0) == Collapse(row, locked)
  {
    FoldFromPartial(row, locked, ks, 0);
    assert Prefix(ks, 0) == {};
    PartialEnds(row, locked);
  }

  /** The fold never adds an entry: an entry moved down replaces the one
      it popped, and a deletion removes one. */
  lemma {:induction false} DelRowFoldSize(row: int, m: Locked, ks: seq<Key>, i: nat)
    requires Distinct(ks) && i <= |ks|
    requires forall j | i <= j < |ks| && ks[j].1 <= row :: ks[j] in m
    ensures |DelRowFold(row, m, ks, i)| <= |m|
    ensures (exists j | i <= j < |ks| :: ks[j].1 == row) ==> |DelRowFold(row, m, ks, i)| < |m|
    decreases |ks| - i
  {
    if i < |ks| {
      var k := ks[i];
      var m' := DelRowStep(row, m, k);
      if k.1 < row {
        assert |m - {k}| == |m| - 1;
      } else if k.1 == row {
        assert |m'| == |m| - 1;
      }
      assert |m'| <= |m|;
      forall j | i + 1 <= j < |ks| && ks[j].1 <= row
        ensures ks[j] in m'
      {
        assert ks[j] != k;
      }
      DelRowFoldSize(row, m', ks, i + 1);
    }
  }

  lemma SortedKeysEnumerate(row: int, locked: Locked)
    ensures Enumerates(SortedKeys(locked.Keys), locked) && RowSorted(SortedKeys(locked.Keys))
    ensures (exists x :: (x, row) in locked) ==>
      exists j | 0 <= j < |SortedKeys(locked.Keys)| :: SortedKeys(locked.Keys)[j].1 == row
  {
    var ks := SortedKeys(locked.Keys);
    forall i, j | 0 <= i < j < |ks|
      ensures ks[i] != ks[j] && ks[i].1 <= ks[j].1
    {
      assert KeyLess(ks[i], ks[j]);
    }
    if exists x :: (x, row) in locked {
      var x :| (x, row) in locked;
      assert (x, row) in ks;
    }
  }

  /** `del_row(row, locked)`: the fold over the keys in ascending row
      order. The entry count never grows, and drops when the row held an
      entry; `DelRowIsCollapse` describes the result cell by cell. */
  function DelRow(row: int, locked: Locked): (r: Locked)
    ensures |r| <= |locked|
    ensures (exists x :: (x, row) in locked) ==> |r| < |locked|
  {
    var ks := SortedKeys(locked.Keys);
    SortedKeysEnumerate(row, locked);
    DelRowFoldSize(row, locked, ks, 0);
    DelRowFold(row, locked, ks, 0)
  }

  /** The fold of `del_row` computes `Collapse`. */
  lemma DelRowIsCollapse(row: int, locked: Locked)
    ensures DelRow(row, locked) == Collapse(row, locked)
  {
    var ks := SortedKeys(locked.Keys);
    SortedKeysEnumerate(row, locked);
    DelRowFoldIsCollapse(row, locked, ks);
  }

  /** Clearing a row of a board whose keys all lie on it keeps them on it,
      and a full row is left empty. */
  lemma DelRowOnBoard(row: int, locked: Locked)
    ensures OnBoard(locked) && 0 <= row < Rows ==> OnBoard(DelRow(row, locked))
    ensures OnBoard(locked) && (forall x | 0 <= x < Cols :: (x, row) in locked) ==>
      forall p | p in DelRow(row, locked) :: p.1 != row
  {
    DelRowIsCollapse(row, locked);
  }

  /** The first clause of `DelRowOnBoard` alone, as a plain precondition:
      it keeps the proof of `ClearFromOnBoard` small. */
  lemma DelRowKeepsOnBoard(row: int, locked: Locked)
    requires OnBoard(locked) && 0 <= row < Rows
    ensures OnBoard(DelRow(row, locked))
  {
    DelRowOnBoard(row, locked);
  }

  /** Clearing a row introduces no colour: every entry left carries the
      colour of some entry of the map. */
  lemma DelRowPalette(row: int, locked: Locked, palette: seq<Color>)
    requires PaintedFrom(locked, palette)
    ensures PaintedFrom(DelRow(row, locked), palette)
  {
    DelRowIsCollapse(row, locked);
    var r := DelRow(row, locked);
    forall p | p in r
      ensures r[p] in palette
    {
      if p.1 <= row {
        var q := (p.0, RunTop(locked, p.0, p.1 - 1));
        assert r[p] == locked[q];
      }
    }
  }

  // ---------------------------------------------------------------------
  // How runs collapse
  // ---------------------------------------------------------------------

  lemma {:induction false} RunTopOfRun(locked: Locked, x: int, top: int, bottom: int)
    requires top <= bottom
    requires forall z | top <= z <= bottom :: (x, z) in locked
    requires (x, top - 1) !in locked
    ensures RunTop(locked, x, bottom) == top
    decreases bottom - top
  {
    if bottom > top {
      RunTopOfRun(locked, x, top, bottom - 1);
    }
  }

  /** A vertical run of cells from `top` to `bottom`, wholly above the
      cleared row and not resting on the cell below it, becomes a single
      cell one row below the run, in the colour of the run's top cell. */
  lemma RunAboveCollapses(row: int, locked: Locked, x: int, top: int, bottom: int)
    requires top <= bottom < row
    requires forall z | top <= z <= bottom :: (x, z) in locked
    requires (x, top - 1) !in locked && (x, bottom + 1) !in locked
    ensures forall z | top <= z <= bottom :: (x, z) !in DelRow(row, locked)
    ensures (x, bottom + 1) in DelRow(row, locked)
    ensures DelRow(row, locked)[(x, bottom + 1)] == locked[(x, top)]
  {
    DelRowIsCollapse(row, locked);
    RunTopOfRun(locked, x, top, bottom);
    forall z | top <= z <= bottom
      ensures (x, z) !in DelRow(row, locked)
    {
      assert (x, z) in locked;
    }
  }

  /** A vertical run that reaches down into the cleared row vanishes
      entirely: nothing is left of it anywhere from its top to the row,
      while the cell just above it only fills if a run ended right above
      that. */
  lemma RunOnRowVanishes(row: int, locked: Locked, x: int, top: int)
    requires top <= row
    requires forall z | top <= z <= row :: (x, z) in locked
    requires (x, top - 1) !in locked
    ensures forall z | top <= z <= row :: (x, z) !in DelRow(row, locked)
    ensures (x, top - 1) in DelRow(row, locked) <==> (x, top - 2) in locked
  {
    DelRowIsCollapse(row, locked);
    forall z | top <= z <= row
      ensures (x, z) !in DelRow(row, locked)
    {
      assert (x, z) in locked;
      assert !InCollapse(row, locked, (x, z));
    }
    assert InCollapse(row, locked, (x, top - 1)) <==> (x, top - 2) in locked;
  }

  // ---------------------------------------------------------------------
  // The textbook one-row shift, and when del_row agrees with it
  // ---------------------------------------------------------------------

  /** The textbook compaction: entries above the row move down one row,
      entries in the row are removed, entries below stay. */
  predicate InShift(row: int, locked: Locked, p: Key)
  {
    (p.1 > row && p in locked) || (p.1 <= row && (p.0, p.1 - 1) in locked)
  }

  function ShiftValue(row: int, locked: Locked, p: Key): Color
    requires InShift(row, locked, p)
  {
    if p.1 > row then locked[p] else locked[(p.0, p.1 - 1)]
  }

  function ShiftDown(row: int, locked: Locked): (r: Locked)
    ensures forall p :: p in r <==> InShift(row, locked, p)
    ensures forall p | p in r :: r[p] == ShiftValue(row, locked, p)
  {
    forall p ensures p in Shifted(locked.Keys) <==> (p.0, p.1 - 1) in locked {
      ShiftedMember(locked.Keys, p);
    }
    map p | p in locked.Keys + Shifted(locked.Keys) && InShift(row, locked, p)
      :: ShiftValue(row, locked, p)
  }

  /** No two locked cells are stacked directly on each other at or above
      the cleared row. */
  predicate NoStack(row: int, locked: Locked)
  {
    forall k | k in locked && k.1 < row :: (k.0, k.1 + 1) !in locked
  }

  /** Without stacked cells, the collapse moves every cell by one row. */
  lemma CollapseIsShift(row: int, locked: Locked)
    requires NoStack(row, locked)
    ensures Collapse(row, locked) == ShiftDown(row, locked)
  {
    var c, sd := Collapse(row, locked), ShiftDown(row, locked);
    forall p
      ensures p in c <==> p in sd
      ensures p in c ==> c[p] == sd[p]
    {
      if p.1 <= row && (p.0, p.1 - 1) in locked {
        var k := (p.0, p.1 - 1);
        assert (k.0, k.1 + 1) == p;
        assert p !in locked;
        assert RunTop(locked, p.0, p.1 - 1) == p.1 - 1;
      }
    }
  }

  /** A stacked pair: the lower cell is where the shift puts the upper
      one, but `del_row` leaves it empty. */
  lemma StackBreaksShift(row: int, locked: Locked, k: Key)
    requires k in locked && k.1 < row && (k.0, k.1 + 1) in locked
    ensures (k.0, k.1 + 1) in ShiftDown(row, locked)
    ensures (k.0, k.1 + 1) !in Collapse(row, locked)
  {
    var p := (k.0, k.1 + 1);
    assert InShift(row, locked, p);
    assert !InCollapse(row, locked, p);
  }

  /** `del_row` performs the textbook shift exactly when no two cells are
      stacked at or above the cleared row. In particular, a cell resting
      directly on a full row is lost instead of taking the row's place. */
  lemma DelRowIsShiftIff(row: int, locked: Locked)
    ensures DelRow(row, locked) == ShiftDown(row, locked) <==> NoStack(row, locked)
  {
    DelRowIsCollapse(row, locked);
    if NoStack(row, locked) {
      CollapseIsShift(row, locked);
    } else {
      var k :| k in locked && k.1 < row && (k.0, k.1 + 1) in locked;
      StackBreaksShift(row, locked, k);
    }
  }

  // ---------------------------------------------------------------------
  // clear_rows (tetris.py:94-100)
  // ---------------------------------------------------------------------

  /** The rows `0 .. n-1` of the grid that show no background cell. */
  function FullRowsBelow(grid: Grid, n: nat): set<int>
    requires n <= |grid|
  {
    set y | 0 <= y < n && FullRow(grid[y])
  }

  lemma FullRowsBelowStep(grid: Grid, n: nat)
    requires 0 < n <= |grid|
    ensures |FullRowsBelow(grid, n)| == |FullRowsBelow(grid, n - 1)| + (if FullRow(grid[n - 1]) then 1 else 0)
  {
    if FullRow(grid[n - 1]) {
      assert FullRowsBelow(grid, n) == FullRowsBelow(grid, n - 1) + {n - 1};
    } else {
      assert FullRowsBelow(grid, n) == FullRowsBelow(grid, n - 1);
    }
  }

  /** The scan of `clear_rows` from row `n - 1` up to row 0: every full
      row of the grid, taken bottom to top, is counted and removed from
      the locked map with `del_row`. The grid itself is never rebuilt. */
  function ClearFrom(grid: Grid, locked: Locked, n: nat): (r: (nat, Locked))
    requires n <= |grid|
    ensures r.0 == |FullRowsBelow(grid, n)|
    ensures |r.1| <= |locked|
    ensures r.0 == 0 ==> r.1 == locked
    decreases n
  {
    if n == 0 then
      assert FullRowsBelow(grid, n) == {};
      (0, locked)
    else
      FullRowsBelowStep(grid, n);
      if FullRow(grid[n - 1]) then
        var rest := ClearFrom(grid, DelRow(n - 1, locked), n - 1);
        (rest.0 + 1, rest.1)
      else
        ClearFrom(grid, locked, n - 1)
  }

  /** `clear_rows(grid, locked)`: the number of full rows of `grid`, with
      `del_row` applied for each of them, bottom to top. The count depends
      on the grid alone, whatever the locked map holds by now. */
  function ClearRows(grid: Grid, locked: Locked): (r: (nat, Locked))
    ensures r.0 == |FullRowsBelow(grid, |grid|)|
    ensures |r.1| <= |locked|
    ensures r.0 == 0 ==> r.1 == locked
  {
    ClearFrom(grid, locked, |grid|)
  }

  lemma {:induction false} ClearFromPalette(grid: Grid, locked: Locked, n: nat, palette: seq<Color>)
    requires n <= |grid| && PaintedFrom(locked, palette)
    ensures PaintedFrom(ClearFrom(grid, locked, n).1, palette)
    decreases n
  {
    if n > 0 {
      var m := if FullRow(grid[n - 1]) then DelRow(n - 1, locked) else locked;
      assert PaintedFrom(m, palette) by {
        if FullRow(grid[n - 1]) {
          DelRowPalette(n - 1, locked, palette);
        }
      }
      ClearFromPalette(grid, m, n - 1, palette);
      ClearFromStep(grid, locked, n);
    } else {
      assert ClearFrom(grid, locked, n).1 == locked;
    }
  }

  lemma {:induction false} ClearFromOnBoard(grid: Grid, locked: Locked, n: nat)
    requires n <= |grid| && n <= Rows && OnBoard(locked)
    ensures OnBoard(ClearFrom(grid, locked, n).1)
    decreases n
  {
    if n > 0 {
      if FullRow(grid[n - 1]) {
        DelRowKeepsOnBoard(n - 1, locked);
        ClearFromOnBoard(grid, DelRow(n - 1, locked), n - 1);
      } else {
        ClearFromOnBoard(grid, locked, n - 1);
      }
      ClearFromStep(grid, locked, n);
    } else {
      assert ClearFrom(grid, locked, n).1 == locked;
    }
  }

  /** Clearing rows only removes and moves entries: no colour is
      introduced, and a board of at most `Rows` rows keeps every key on
      the board. */
  lemma ClearRowsKeeps(grid: Grid, locked: Locked, palette: seq<Color>)
    ensures PaintedFrom(locked, palette) ==> PaintedFrom(ClearRows(grid, locked).1, palette)
    ensures |grid| <= Rows && OnBoard(locked) ==> OnBoard(ClearRows(grid, locked).1)
  {
    if PaintedFrom(locked, palette) {
      ClearFromPalette(grid, locked, |grid|, palette);
    }
    if |grid| <= Rows && OnBoard(locked) {
      ClearFromOnBoard(grid, locked, |grid|);
    }
  }

  /** The full rows among rows `0 .. n-1` of the grid, listed bottom to
      top, each once. */
  function FullRowsDown(grid: Grid, n: nat): seq<int>
    requires n <= |grid|
    decreases n
  {
    if n == 0 then []
    else if FullRow(grid[n - 1]) then [n - 1] + FullRowsDown(grid, n - 1)
    else FullRowsDown(grid, n - 1)
  }

  /** The list holds exactly the full rows below `n`, strictly
      descending, so each appears once and the bottom one comes first. */
  lemma {:induction false} FullRowsDownLists(grid: Grid, n: nat)
    requires n <= |grid|
    ensures var rs := FullRowsDown(grid, n);
      && (forall y :: y in rs <==> 0 <= y < n && FullRow(grid[y]))
      && (forall i | 0 <= i < |rs| :: 0 <= rs[i] < n)
      && (forall i, j | 0 <= i < j < |rs| :: rs[i] > rs[j])
    decreases n
  {
    if n > 0 {
      FullRowsDownLists(grid, n - 1);
    }
  }

  /** `del_row` applied for each row of `rows`, in order. */
  function DelRows(rows: seq<int>, locked: Locked): (r: Locked)
    ensures |r| <= |locked|
  {
    if |rows| == 0 then locked else DelRows(rows[1..], DelRow(rows[0], locked))
  }

  /** The scan leaves the map that `del_row` gives when it is applied once
      for each full row, bottom to top. */
  lemma {:induction false} ClearFromDeletesFullRows(grid: Grid, locked: Locked, n: nat)
    requires n <= |grid|
    ensures ClearFrom(grid, locked, n).1 == DelRows(FullRowsDown(grid, n), locked)
    decreases n
  {
    if n > 0 {
      var rs := FullRowsDown(grid, n - 1);
      ClearFromStep(grid, locked, n);
      FullRowsDownStep(grid, n);
      if FullRow(grid[n - 1]) {
        var m := DelRow(n - 1, locked);
        ClearFromDeletesFullRows(grid, m, n - 1);
        DelRowsCons(n - 1, rs, locked);
        calc {
          ClearFrom(grid, locked, n).1;
          ClearFrom(grid, m, n - 1).1;
          DelRows(rs, m);
          DelRows([n - 1] + rs, locked);
          DelRows(FullRowsDown(grid, n), locked);
        }
      } else {
        ClearFromDeletesFullRows(grid, locked, n - 1);
        calc {
          ClearFrom(grid, locked, n).1;
          ClearFrom(grid, locked, n - 1).1;
          DelRows(rs, locked);
          DelRows(FullRowsDown(grid, n), locked);
        }
      }
    } else {
      assert ClearFrom(grid, locked, n).1 == locked;
      assert DelRows(FullRowsDown(grid, n), locked) == locked;
    }
  }

  /** One row of the scan. */
  lemma ClearFromStep(grid: Grid, locked: Locked, n: nat)
    requires 0 < n <= |grid|
    ensures ClearFrom(grid, locked, n).1 ==
      ClearFrom(grid, if FullRow(grid[n - 1]) then DelRow(n - 1, locked) else locked, n - 1).1
  {
  }

  /** One row of the list of full rows. */
  lemma FullRowsDownStep(grid: Grid, n: nat)
    requires 0 < n <= |grid|
    ensures FullRowsDown(grid, n) ==
      if FullRow(grid[n - 1]) then [n - 1] + FullRowsDown(grid, n - 1) else FullRowsDown(grid, n - 1)
  {
  }

  lemma DelRowsCons(row: int, rows: seq<int>, locked: Locked)
    ensures DelRows([row] + rows, locked) == DelRows(rows, DelRow(row, locked))
  {
    assert ([row] + rows)[1..] == rows;
  }

  /** The listed rows are the full rows the scan counts. */
  lemma {:induction false} FullRowsDownCount(grid: Grid, n: nat)
    requires n <= |grid|
    ensures |FullRowsDown(grid, n)| == |FullRowsBelow(grid, n)|
    decreases n
  {
    if n > 0 {
      FullRowsDownCount(grid, n - 1);
      FullRowsBelowStep(grid, n);
    } else {
      assert FullRowsBelow(grid, n) == {};
    }
  }

  /** `clear_rows` as a whole: the count of full rows, and `del_row` applied
      to each of them from the bottom of the grid up. */
  lemma ClearRowsDeletesFullRows(grid: Grid, locked: Locked)
    ensures var rs := FullRowsDown(grid, |grid|);
      ClearRows(grid, locked) == (|rs|, DelRows(rs, locked))
  {
    ClearFromDeletesFullRows(grid, locked, |grid|);
    FullRowsDownCount(grid, |grid|);
  }

  /** With a single full row, clearing is one `del_row`, whose result
      `Collapse` describes cell by cell. */
  lemma ClearRowsOneFullRow(grid: Grid, locked: Locked, y: int)
    requires FullRowsBelow(grid, |grid|) == {y}
    ensures ClearRows(grid, locked) == (1, Collapse(y, locked))
  {
    var rs := FullRowsDown(grid, |grid|);
    ClearRowsDeletesFullRows(grid, locked);
    FullRowsDownLists(grid, |grid|);
    assert y in rs;
    forall i | 0 <= i < |rs|
      ensures rs[i] == y
    {
      assert rs[i] in FullRowsBelow(grid, |grid|);
    }
    assert rs == [y];
    DelRowIsCollapse(y, locked);
    assert DelRows(rs, locked) == DelRows([], DelRow(y, locked));
  }

  /** The rows full in the projection of `locked`. */
  function FullRowsOf(locked: Locked): set<int>
  {
    set y | 0 <= y < Rows && RowComplete(locked, y)
  }

  /** With the grid projected from an earlier map `before`, `clear_rows`
      counts the rows that were full in `before`; rows that only the
      current map `now` completes are not counted. */
  lemma ClearRowsOnStaleGrid(before: Locked, now: Locked)
    requires Projectable(before) && NoBackground(before)
    ensures ClearRows(CreateGrid(before), now).0 == |FullRowsOf(before)|
  {
    var g := CreateGrid(before);
    forall y | 0 <= y < Rows
      ensures FullRow(g[y]) <==> RowComplete(before, y)
    {
      FullRowIff(before, y);
    }
    assert FullRowsBelow(g, |g|) == FullRowsOf(before);
  }
}

=== FILE: pieces.dfy ===
/** The falling piece: spawning with its catalog colour (tetris.py:59-64),
    bounds-checked rotation (tetris.py:66-69), locking into the board
    (tetris.py:170-174) and the descent used by the ghost projection and
    the hard drop (tetris.py:144-149, 233-236). */
module Pieces {
  import opened Shapes
  import opened Board

  /** A positioned shape: `(x, y)` is the board cell of the shape's
      top-left entry. */
  datatype Piece = Piece(shape: Shape, color: Color, x: int, y: int)

  /** The spawn column `COLS // 2 - len(shape[0]) // 2`: the top row is
      centred, with the odd column left over on the left. */
  function SpawnX(shape: Shape): (x: int)
    requires |shape| > 0
    ensures var right := Cols - x - |shape[0]|;
      right <= x <= right + 1
  {
    Cols / 2 - |shape[0]| / 2
  }

  /** No filled cell of the piece lies off the board sides or below the
      floor: the test `collision(shape, x, y)` without a locked map. */
  predicate InBounds(p: Piece)
  {
    !Collision(p.shape, p.x, p.y, map[])
  }

  /** A shape the game moves fits on the board at its spawn position. */
  lemma SpawnInBounds(shape: Shape)
    requires WellShaped(shape)
    ensures !Collision(shape, SpawnX(shape), 0, map[])
  {
    var w := |shape[0]|;
    assert 3 <= SpawnX(shape) && SpawnX(shape) + w <= 7 by {
      assert w == 1 || w == 2 || w == 3 || w == 4;
    }
    forall r, c | 0 <= r < |shape| && 0 <= c < |shape[r]| && shape[r][c]
      ensures !Blocked(SpawnX(shape) + c, r, map[])
    {
    }
  }

  /** `Piece(shape)`: a catalog shape spawned at row 0, centred, coloured
      by its position in the catalog. The colour lookup fails for a shape
      that is not a catalog entry, so only catalog shapes are accepted. */
  function NewPiece(shape: Shape): (p: Piece)
    requires shape in Catalog
    ensures p.shape == shape && p.x == SpawnX(shape) && p.y == 0
    ensures forall k | 0 <= k < |Catalog| && Catalog[k] == shape :: p.color == Colors[k]
    ensures InBounds(p)
  {
    CatalogWellShaped();
    SpawnInBounds(shape);
    Piece(shape, ColorOf(shape), SpawnX(shape), 0)
  }

  /** `Piece.rotate`: the rotated shape is kept only if it passes the
      bounds check at the current position; the locked cells are not
      consulted. Position and colour never change. */
  function RotatePiece(p: Piece): (r: Piece)
    ensures r.x == p.x && r.y == p.y && r.color == p.color
    ensures r.shape == p.shape || r.shape == Rotate(p.shape)
    ensures !Collision(Rotate(p.shape), p.x, p.y, map[]) ==> r.shape == Rotate(p.shape)
    ensures Collision(Rotate(p.shape), p.x, p.y, map[]) ==> r == p
    ensures InBounds(p) ==> InBounds(r)
  {
    var turned := Rotate(p.shape);
    if !Collision(turned, p.x, p.y, map[]) then p.(shape := turned) else p
  }

  // ---------------------------------------------------------------------
  // Locking (tetris.py:170-174)
  // ---------------------------------------------------------------------

  /** Board cell `k` is covered by a filled cell of the piece at a row
      above -1: the cells `lock_piece` writes. */
  predicate Covers(p: Piece, k: Key)
  {
    var r, c := k.1 - p.y, k.0 - p.x;
    k.1 > -1 && 0 <= r < |p.shape| && 0 <= c < |p.shape[r]| && p.shape[r][c]
  }

  /** Board cell `k` is covered by a filled cell of shape row `i` at
      column `j` or later. */
  predicate CoversRowFrom(p: Piece, i: nat, j: nat, k: Key)
  {
    Covers(p, k) && k.1 == p.y + i && k.0 - p.x >= j
  }

  /** Peeling the first column off the cells `CoversRowFrom` names. */
  lemma CoversRowFromStep(p: Piece, i: nat, j: nat, k: Key)
    requires i < |p.shape| && j < |p.shape[i]|
    ensures CoversRowFrom(p, i, j, k) <==>
      (k == (p.x + j, p.y + i) && p.shape[i][j] && p.y + i > -1) || CoversRowFrom(p, i, j + 1, k)
  {
  }

  /** The inner loop of `lock_piece`, over the cells of shape row `i`
      from column `j` on. */
  function LockRow(p: Piece, i: nat, j: nat, m: Locked): (r: Locked)
    requires i < |p.shape| && j <= |p.shape[i]|
    ensures forall k :: k in r <==> k in m || CoversRowFrom(p, i, j, k)
    ensures forall k | k in r :: r[k] == if CoversRowFrom(p, i, j, k) then p.color else m[k]
    decreases |p.shape[i]| - j
  {
    if j == |p.shape[i]| then m
    else
      var m' := if p.shape[i][j] && p.y + i > -1 then m[(p.x + j, p.y + i) := p.color] else m;
      var r := LockRow(p, i, j + 1, m');
      forall k
        ensures k in r <==> k in m || CoversRowFrom(p, i, j, k)
        ensures k in r ==> r[k] == if CoversRowFrom(p, i, j, k) then p.color else m[k]
      {
        CoversRowFromStep(p, i, j, k);
      }
      r
  }

  /** The outer loop of `lock_piece`, over shape rows `i` and below. */
  function LockRows(p: Piece, i: nat, m: Locked): (r: Locked)
    requires i <= |p.shape|
    ensures forall k :: k in r <==> k in m || (Covers(p, k) && k.1 >= p.y + i)
    ensures forall k | k in r :: r[k] == if Covers(p, k) && k.1 >= p.y + i then p.color else m[k]
    decreases |p.shape| - i
  {
    if i == |p.shape| then m
    else LockRows(p, i + 1, LockRow(p, i, 0, m))
  }

  /** `lock_piece(piece, locked)`: every cell the piece covers at a row
      above -1 is set to the piece colour, overwriting what was there;
      every other key keeps its entry, and cells above the board are
      dropped. */
  function LockPiece(p: Piece, locked: Locked): (r: Locked)
    ensures forall k :: k in r <==> k in locked || Covers(p, k)
    ensures forall k | k in r :: r[k] == if Covers(p, k) then p.color else locked[k]
  {
    LockRows(p, 0, locked)
  }

  /** Locking an in-bounds piece keeps every key on the board. */
  lemma LockPieceOnBoard(p: Piece, locked: Locked)
    requires OnBoard(locked) && InBounds(p)
    ensures OnBoard(LockPiece(p, locked))
  {
    forall k | Covers(p, k)
      ensures 0 <= k.0 < Cols && 0 <= k.1 < Rows
    {
      assert !Blocked(p.x + (k.0 - p.x), p.y + (k.1 - p.y), map[]);
    }
  }

  // ---------------------------------------------------------------------
  // Descent: ghost projection and hard drop
  // ---------------------------------------------------------------------

  /** How far the shape falls from row `y` before the next row down
      collides: the loop `while not collision(shape, x, y + 1, locked):
      y += 1`. It ends for every shape with a filled cell, because a cell
      below the floor always collides. */
  function DropDistance(shape: Shape, x: int, y: int, locked: Locked): (d: nat)
    requires HasFilled(shape)
    ensures Collision(shape, x, y + d + 1, locked)
    ensures forall y' | y < y' <= y + d :: !Collision(shape, x, y', locked)
    decreases Rows - y
  {
    if Collision(shape, x, y + 1, locked) then 0
    else
      assert y + 1 < Rows by {
        if y + 1 >= Rows {
          FloorCollides(shape, x, y + 1, locked);
        }
      }
      1 + DropDistance(shape, x, y + 1, locked)
  }

  /** The ghost projection: the piece moved down as far as it can fall,
      colour and shape kept. The result is the first row at or below the
      piece's row from which the next row down collides. */
  function GhostPiece(p: Piece, locked: Locked): (g: Piece)
    requires HasFilled(p.shape)
    ensures g.shape == p.shape && g.x == p.x && g.color == p.color && g.y >= p.y
    ensures Collision(g.shape, g.x, g.y + 1, locked)
    ensures forall y' | p.y < y' <= g.y :: !Collision(p.shape, p.x, y', locked)
    ensures InBounds(p) ==> InBounds(g)
  {
    var d := DropDistance(p.shape, p.x, p.y, locked);
    CollisionBounds(p.shape, p.x, p.y + d, locked);
    p.(y := p.y + d)
  }

  /** `get_ghost_piece` as written: it builds the ghost with
      `Piece(piece.shape)`, so the colour lookup demands a catalog shape. */
  function GhostAsWritten(p: Piece, locked: Locked): (g: Piece)
    requires p.shape in Catalog
    ensures g.shape == p.shape && g.x == p.x && g.y >= p.y
    ensures g.color == ColorOf(p.shape)
    ensures Collision(g.shape, g.x, g.y + 1, locked)
  {
    CatalogWellShaped();
    var spawned := NewPiece(p.shape);
    spawned.(x := p.x, y := p.y + DropDistance(p.shape, p.x, p.y, locked))
  }

  /** A shape the game moves can always turn once at its spawn position. */
  lemma TurnAtSpawnInBounds(shape: Shape)
    requires WellShaped(shape)
    ensures !Collision(Rotate(shape), SpawnX(shape), 0, map[])
  {
    RotateRect(shape, |shape|, |shape[0]|);
    var t := Rotate(shape);
    var w := |shape[0]|;
    assert 3 <= SpawnX(shape) <= 5 by {
      assert w == 1 || w == 2 || w == 3 || w == 4;
    }
    forall r, c | 0 <= r < |t| && 0 <= c < |t[r]| && t[r][c]
      ensures !Blocked(SpawnX(shape) + c, r, map[])
    {
    }
  }

  /** A freshly spawned catalog piece can always turn once, and unless it
      is the O piece its turned shape is not a catalog entry: the lookup
      `SHAPES.index` of the ghost projection (and of the hold swap) then
      has no answer. */
  lemma TurnedShapeLeavesCatalog(k: nat)
    requires k < |Catalog|
    ensures RotatePiece(NewPiece(Catalog[k])).shape == Rotate(Catalog[k])
    ensures k != 1 ==> Rotate(Catalog[k]) !in Catalog
  {
    CatalogWellShaped();
    var s := Catalog[k];
    TurnAtSpawnInBounds(s);
    RotateRect(s, |s|, |s[0]|);
    if k != 1 {
      assert |s[0]| >= 3;
      assert forall q | q in Catalog :: |q| <= 2;
    }
  }

  /** Rotation consults only the board bounds: the I piece turns upright
      at spawn even when a locked cell sits in its way, and then overlaps
      that cell. */
  lemma RotationIgnoresLocked()
    ensures var p := NewPiece(ShapeI);
      var locked := map[(p.x, 2) := Colors[2]];
      var q := RotatePiece(p);
      q.shape == Rotate(ShapeI) && Collision(q.shape, q.x, q.y, locked)
  {
    var p := NewPiece(ShapeI);
    var locked := map[(p.x, 2) := Colors[2]];
    TurnedShapeLeavesCatalog(0);
    var q := RotatePiece(p);
    RotateRect(ShapeI, 1, 4);
    assert q.shape[2][0] == ShapeI[0][2];
    assert Blocked(q.x + 0, q.y + 2, locked);
  }
}

=== FILE: shapes.dfy ===
/** The seven piece shapes of the game, their colours, and the quarter-turn
    rotation of a shape matrix (tetris.py:4-36, 55-56). */
module Shapes {

  /** Board size in cells. */
  const Cols: int := 10
  const Rows: int := 20

  /** An RGB colour triple, as the game stores it. */
  datatype Color = Rgb(red: int, green: int, blue: int)

  /** The background colour of an empty grid cell. */
  const Black: Color := Rgb(0, 0, 0)

  /** A shape is a matrix of cells, row by row; `true` marks a filled cell. */
  type Shape = seq<seq<bool>>

  const ShapeI: Shape := [[true, true, true, true]]
  const ShapeO: Shape := [[true, true], [true, true]]
  const ShapeT: Shape := [[false, true, false], [true, true, true]]
  const ShapeJ: Shape := [[true, false, false], [true, true, true]]
  const ShapeL: Shape := [[false, false, true], [true, true, true]]
  const ShapeS: Shape := [[true, true, false], [false, true, true]]
  const ShapeZ: Shape := [[false, true, true], [true, true, false]]

  /** The shape catalog; a shape's colour is the entry of `Colors` at the
      same position. */
  const Catalog: seq<Shape> := [ShapeI, ShapeO, ShapeT, ShapeJ, ShapeL, ShapeS, ShapeZ]

  const Colors: seq<Color> := [
    Rgb(0, 240, 240),   // cyan
    Rgb(240, 240, 0),   // yellow
    Rgb(160, 0, 240),   // purple
    Rgb(0, 0, 240),     // blue
    Rgb(240, 160, 0),   // orange
    Rgb(0, 240, 0),     // green
    Rgb(240, 0, 0)      // red
  ]

  /** No two catalog entries are equal, so a catalog shape has one position. */
  lemma CatalogDistinct()
    ensures |Catalog| == |Colors| == 7
    ensures forall a, b | 0 <= a < b < 7 :: Catalog[a] != Catalog[b]
    ensures Black !in Colors
  {
    assert ShapeI[0] != ShapeO[0] && ShapeI[0] != ShapeT[0] && ShapeI[0] != ShapeJ[0];
    assert ShapeI[0] != ShapeL[0] && ShapeI[0] != ShapeS[0] && ShapeI[0] != ShapeZ[0];
    assert ShapeO[0] != ShapeT[0] && ShapeO[0] != ShapeJ[0] && ShapeO[0] != ShapeL[0];
    assert ShapeO[0] != ShapeS[0] && ShapeO[0] != ShapeZ[0];
    assert ShapeT[0][0] != ShapeJ[0][0] && ShapeT[0][2] != ShapeL[0][2];
    assert ShapeT[0][0] != ShapeS[0][0] && ShapeT[0][2] != ShapeZ[0][2];
    assert ShapeJ[0][0] != ShapeL[0][0] && ShapeJ[0][1] != ShapeS[0][1] && ShapeJ[0][0] != ShapeZ[0][0];
    assert ShapeL[0][0] != ShapeS[0][0] && ShapeL[0][1] != ShapeZ[0][1];
    assert ShapeS[0][0] != ShapeZ[0][0];
  }

  /** No value occurs twice in `s`. */
  predicate Distinct<X(==)>(s: seq<X>)
  {
    forall i, j | 0 <= i < j < |s| :: s[i] != s[j]
  }

  /** Position of the first occurrence of `v` in `xs` (Python's `list.index`). */
  function IndexOf<X(==)>(xs: seq<X>, v: X): (i: nat)
    requires v in xs
    ensures i < |xs| && xs[i] == v
    ensures forall j | 0 <= j < i :: xs[j] != v
  {
    if xs[0] == v then 0 else 1 + IndexOf(xs[1..], v)
  }

  /** The colour the game assigns to a shape: `COLORS[SHAPES.index(shape)]`.
      Defined only for shapes equal to a catalog entry; Python raises an
      error for any other shape. */
  function ColorOf(shape: Shape): (c: Color)
    requires shape in Catalog
    ensures forall k | 0 <= k < 7 && Catalog[k] == shape :: c == Colors[k]
    ensures c in Colors && c != Black
  {
    CatalogDistinct();
    Colors[IndexOf(Catalog, shape)]
  }

  // ---------------------------------------------------------------------
  // Rotation: `[list(row) for row in zip(*shape[::-1])]`
  // ---------------------------------------------------------------------

  /** The rows in reverse order (`shape[::-1]`). */
  function Reverse(s: Shape): (r: Shape)
    ensures |r| == |s|
    ensures forall i | 0 <= i < |s| :: r[i] == s[|s| - 1 - i]
  {
    if s == [] then [] else Reverse(s[1..]) + [s[0]]
  }

  /** Length of the shortest row, 0 for a shape without rows: the number of
      tuples `zip` produces. */
  function MinWidth(s: Shape): (w: nat)
    ensures forall i | 0 <= i < |s| :: w <= |s[i]|
    ensures |s| > 0 ==> exists i | 0 <= i < |s| :: w == |s[i]|
    ensures |s| == 0 ==> w == 0
  {
    if |s| == 0 then 0
    else if |s| == 1 then |s[0]|
    else
      var w := MinWidth(s[1..]);
      if |s[0]| <= w then |s[0]| else w
  }

  /** `zip(*t)`: column `i` of `t` becomes row `i`, cut at the shortest row. */
  function Transpose(t: Shape): (r: Shape)
    ensures |r| == MinWidth(t)
    ensures forall i | 0 <= i < |r| :: |r[i]| == |t|
    ensures forall i, j | 0 <= i < |r| && 0 <= j < |t| :: r[i][j] == t[j][i]
  {
    seq(MinWidth(t), i requires 0 <= i < MinWidth(t) =>
      seq(|t|, j requires 0 <= j < |t| => t[j][i]))
  }

  /** A clockwise quarter turn (tetris.py:55-56): the transpose of the
      row-reversed matrix. Entry `(i, j)` of the result is entry
      `(|s| - 1 - j, i)` of the input. */
  function Rotate(s: Shape): (r: Shape)
    ensures |r| == MinWidth(s)
    ensures forall i | 0 <= i < |r| :: |r[i]| == |s|
    ensures forall i, j | 0 <= i < |r| && 0 <= j < |s| :: r[i][j] == s[|s| - 1 - j][i]
  {
    ReverseMinWidth(s);
    Transpose(Reverse(s))
  }

  lemma ReverseMinWidth(s: Shape)
    ensures MinWidth(Reverse(s)) == MinWidth(s)
  {
    var r := Reverse(s);
    if |s| > 0 {
      var a :| 0 <= a < |r| && MinWidth(r) == |r[a]|;
      assert r[a] == s[|s| - 1 - a];
      var b :| 0 <= b < |s| && MinWidth(s) == |s[b]|;
      assert r[|s| - 1 - b] == s[b];
    }
  }

  /** `s` has `rows` rows of `cols` cells each. */
  predicate Rect(s: Shape, rows: int, cols: int)
  {
    |s| == rows && forall i | 0 <= i < |s| :: |s[i]| == cols
  }

  predicate HasFilled(s: Shape)
  {
    exists i, j | 0 <= i < |s| && 0 <= j < |s[i]| :: s[i][j]
  }

  /** The shapes the game ever moves: rectangular, between 1 and 4 cells on
      each side, with at least one filled cell. */
  predicate WellShaped(s: Shape)
  {
    1 <= |s| <= 4 && 1 <= |s[0]| <= 4 && Rect(s, |s|, |s[0]|) && HasFilled(s)
  }

  /** The positions `(row, column)` of the filled cells. */
  function Filled(s: Shape): set<(int, int)>
  {
    set i, j | 0 <= i < |s| && 0 <= j < |s[i]| && s[i][j] :: (i, j)
  }

  lemma MinWidthRect(s: Shape, rows: int, cols: int)
    requires Rect(s, rows, cols) && rows >= 1
    ensures MinWidth(s) == cols
  {
  }

  /** A rotation turns an r x c matrix into a c x r one. */
  lemma RotateRect(s: Shape, rows: int, cols: int)
    requires Rect(s, rows, cols) && rows >= 1
    ensures Rect(Rotate(s), cols, rows)
  {
    MinWidthRect(s, rows, cols);
  }

  /** Two quarter turns are a half turn: entry `(i, j)` comes from
      `(rows - 1 - i, cols - 1 - j)`. */
  lemma RotateTwice(s: Shape, rows: int, cols: int)
    requires Rect(s, rows, cols) && rows >= 1 && cols >= 1
    ensures Rect(Rotate(Rotate(s)), rows, cols)
    ensures forall i, j | 0 <= i < rows && 0 <= j < cols ::
      Rotate(Rotate(s))[i][j] == s[rows - 1 - i][cols - 1 - j]
  {
    RotateRect(s, rows, cols);
    RotateRect(Rotate(s), cols, rows);
  }

  /** Four quarter turns give back the original shape, for every
      rectangular shape with at least one row and one column. */
  lemma RotateFourTimes(s: Shape, rows: int, cols: int)
    requires Rect(s, rows, cols) && rows >= 1 && cols >= 1
    ensures Rotate(Rotate(Rotate(Rotate(s)))) == s
  {
    var h := Rotate(Rotate(s));
    RotateTwice(s, rows, cols);
    RotateTwice(h, rows, cols);
    HalfTurnTwice(s, h, Rotate(Rotate(h)), rows, cols);
  }

  /** Two half turns give back the original shape. */
  lemma HalfTurnTwice(s: Shape, h: Shape, f: Shape, rows: int, cols: int)
    requires Rect(s, rows, cols) && Rect(h, rows, cols) && Rect(f, rows, cols)
    requires forall i, j | 0 <= i < rows && 0 <= j < cols :: h[i][j] == s[rows - 1 - i][cols - 1 - j]
    requires forall i, j | 0 <= i < rows && 0 <= j < cols :: f[i][j] == h[rows - 1 - i][cols - 1 - j]
    ensures f == s
  {
    forall i | 0 <= i < rows
      ensures f[i] == s[i]
    {
      assert forall j | 0 <= j < cols :: f[i][j] == h[rows - 1 - i][cols - 1 - j];
    }
  }

  /** Rotation moves filled cell `(i, j)` to `(j, rows - 1 - i)`. */
  lemma RotateFilled(s: Shape, rows: int, cols: int)
    requires Rect(s, rows, cols) && rows >= 1
    ensures Filled(Rotate(s)) == set p | p in Filled(s) :: (p.1, rows - 1 - p.0)
  {
    RotateRect(s, rows, cols);
    var r := Rotate(s);
    var img := set p | p in Filled(s) :: (p.1, rows - 1 - p.0);
    forall q | q in Filled(r)
      ensures q in img
    {
      var p := (rows - 1 - q.1, q.0);
      assert p in Filled(s);
    }
    forall q | q in img
      ensures q in Filled(r)
    {
      var p :| p in Filled(s) && q == (p.1, rows - 1 - p.0);
      assert r[q.0][q.1] == s[p.0][p.1];
    }
  }

  /** The quarter-turn map on positions does not merge two cells. */
  lemma {:induction false} TurnImageSize(cells: set<(int, int)>, rows: int)
    ensures |set p | p in cells :: (p.1, rows - 1 - p.0)| == |cells|
    decreases |cells|
  {
    var img := set p | p in cells :: (p.1, rows - 1 - p.0);
    if cells != {} {
      var e :| e in cells;
      var rest := cells - {e};
      var imgRest := set p | p in rest :: (p.1, rows - 1 - p.0);
      TurnImageSize(rest, rows);
      assert img == imgRest + {(e.1, rows - 1 - e.0)};
      assert (e.1, rows - 1 - e.0) !in imgRest;
    } else {
      assert img == {};
    }
  }

  /** A rotation keeps the number of filled cells. */
  lemma RotatePreservesCount(s: Shape, rows: int, cols: int)
    requires Rect(s, rows, cols) && rows >= 1
    ensures |Filled(Rotate(s))| == |Filled(s)|
  {
    RotateFilled(s, rows, cols);
    TurnImageSize(Filled(s), rows);
  }

  /** Rotating a shape the game moves gives a shape the game moves. */
  lemma RotateWellShaped(s: Shape)
    requires WellShaped(s)
    ensures WellShaped(Rotate(s))
  {
    var rows, cols := |s|, |s[0]|;
    RotateRect(s, rows, cols);
    var r := Rotate(s);
    var i, j :| 0 <= i < |s| && 0 <= j < |s[i]| && s[i][j];
    assert r[j][rows - 1 - i] == s[i][j];
  }

  lemma CatalogWellShaped()
    ensures forall k | 0 <= k < |Catalog| :: WellShaped(Catalog[k])
  {
    assert ShapeI[0][0] && ShapeO[0][0] && ShapeT[0][1] && ShapeJ[0][0];
    assert ShapeL[0][2] && ShapeS[0][0] && ShapeZ[0][1];
  }
}
